=== FILE: README.md ===
# Airbus OneAtlas Data Downloader — a Dafny model

The OneAtlas Data Downloader is an ArcGIS Pro tool. It lists the imagery
products delivered to a OneAtlas workspace and lets the user pick one product
or all of them. It draws the chosen products' footprints on a results layer
and downloads each product archive into a directory, optionally unpacking it.
Two scripts make it up:

- `Airbus_OneAtlas_Data_Downloader_validation.py` drives the tool dialog. It
  lists the workspace products as summary lines
  `date, level, type, resourceId, ID=id`. It checks the API key's shape,
  enables and disables fields, draws footprints, saves the settings, and
  reports a missing selection.
- `Airbus_OneAtlas_Data_Downloader.py` is the tool run. It looks each
  product up and downloads it unless a file of that name is already present.
  It unpacks the archive when the extract parameter is exactly `"true"`.

The model is functional. Feature records are immutable datatypes of optional
fields. The download directory is the set of paths present. Every vendor
answer is an input: tokens, workspace listings, product searches, transfer
status, whether a file can be created at a path and whether a file opens
as a zip archive. Python exceptions become
`Error` values, so each operation either returns its result or the exception
that stops it. `AddMessage` progress becomes an event log.

Modules:

- `Wrappers` holds `Option` and `Result`.
- `Text` holds Python's `split`, `in` and `strip`.
- `Paths` holds `posixpath.join` and `splitext`.
- `Features` holds feature records, exceptions and the single-product
  lookups.
- `Summary` holds the dialog's product listing and the parsing of its lines.
- `Dialog` holds `ToolValidator`.
- `Downloader` holds the tool run.

The model follows the code where its behaviour is surprising:

- A product lookup keeps the LAST feature of the search response. Every
  feature is still read, so a malformed one anywhere raises. An empty
  response leaves the loop variable unbound (`UnboundLocalError`).
- In all-products mode the tool hands each whole `id,href,resourceId` line of
  its own listing to the product lookup as the product id.
- `updateParameters` compares the key with its stripped form (`==`) instead
  of assigning it. The key is therefore checked and saved as typed. A key
  field with no value raises at that `strip()` call.
- The log lines of the render step read `split(",")[3]` of the selector's
  value. In select-all mode with nothing selected this raises, so drawing
  all footprints fails.
- The "already present" test is `path.exists`, which does not tell an
  archive from a directory. The directory an archive was unpacked into
  therefore counts as present.
- An archive name without an extension is unpacked onto the archive's own
  path. `extractall` into an existing file raises `NotADirectoryError`, and
  the model ends such a store with that exception.

## Model

| member | source | states |
|---|---|---|
| Text.AfterFirst | scripts/Airbus_OneAtlas_Data_Downloader_validation.py:185 | `split("=", 1)[1]` fails exactly when the separator is absent. Otherwise it is the text after the first separator. |
| Text.BeforeFirst | scripts/Airbus_OneAtlas_Data_Downloader_validation.py:194 | `split(",")[0]` is the longest separator-free prefix. |
| Text.Split | scripts/Airbus_OneAtlas_Data_Downloader_validation.py:187 | `split(",")` yields at least one piece, and no piece contains the separator. |
| Text.SplitJoin | scripts/Airbus_OneAtlas_Data_Downloader_validation.py:187 | Joining the pieces of a split with the separator gives back the string. |
| Text.JoinSplit | scripts/Airbus_OneAtlas_Data_Downloader.py:42-44 | Separator-free fields joined with the separator split back into exactly those fields. |
| Text.SplitFirst | scripts/Airbus_OneAtlas_Data_Downloader_validation.py:194 | The first piece of a split is the text before the first separator. |
| Text.SplitCount | scripts/Airbus_OneAtlas_Data_Downloader_validation.py:187 | A split has one more field than the text has separators. |
| Text.Contains | scripts/Airbus_OneAtlas_Data_Downloader_validation.py:184 | `sub in s` holds exactly when `sub` occurs at some position of `s`. |
| Text.Strip | scripts/Airbus_OneAtlas_Data_Downloader_validation.py:68 | `strip()` returns a contiguous slice of the input. Only whitespace (Python's `isspace` set) lies outside it, and the result neither starts nor ends with whitespace. |
| Text.StripIdempotent | scripts/Airbus_OneAtlas_Data_Downloader_validation.py:68 | Stripping a stripped key changes nothing. |
| Paths.Join | scripts/Airbus_OneAtlas_Data_Downloader.py:103 | An absolute name replaces the directory. Otherwise the result is the directory, then the name, with one `/` between them exactly when the directory is non-empty and does not already end in `/`. |
| Paths.JoinBaseName | scripts/Airbus_OneAtlas_Data_Downloader.py:63 | A name without `/` is the final component of the path it is joined onto. |
| Paths.ExtensionStart | scripts/Airbus_OneAtlas_Data_Downloader.py:73 | `splitext` cuts at a `.` after which the final component has no further `.` or `/`, and never at position 0. |
| Paths.SplitExt | scripts/Airbus_OneAtlas_Data_Downloader.py:73 | `splitext` splits the name into root and extension, which concatenate back to it. The extension is empty or a single `.` part of the final component. |
| Paths.SplitExtCharacterised | scripts/Airbus_OneAtlas_Data_Downloader.py:73 | An extension is found exactly when the final component has a `.` preceded by some character other than `.`. |
| Paths.JoinThenAppend | scripts/Airbus_OneAtlas_Data_Downloader.py:74 | Joining a relative name and then appending text is joining the longer name. |
| Paths.ExtractTargetIsArchiveLessExtension | scripts/Airbus_OneAtlas_Data_Downloader.py:73-74 | For every archive name, the unpack directory followed by the extension is the archive's own path. In other words, the target is the archive path less its extension. |
| Paths.ExtractTargetIsArchiveIff | scripts/Airbus_OneAtlas_Data_Downloader.py:70-75 | The unpack directory is the archive's own path exactly when the name has no extension. |
| Features.Field | scripts/Airbus_OneAtlas_Data_Downloader.py:53 | `obj[key]` succeeds exactly when the key is present and raises `KeyError(key)` otherwise. |
| Features.AsText | scripts/Airbus_OneAtlas_Data_Downloader.py:42-44 | Concatenating a value succeeds exactly for strings. Anything else raises `TypeError`. |
| Features.Property | scripts/Airbus_OneAtlas_Data_Downloader.py:42 | `feature["properties"][key]` succeeds exactly when both keys exist. |
| Features.DownloadEntry | scripts/Airbus_OneAtlas_Data_Downloader.py:53 | `feature["_links"]["download"][1]` succeeds exactly when the list has at least two entries. A shorter list raises `IndexError`. |
| Features.PickLast | scripts/Airbus_OneAtlas_Data_Downloader.py:52-55 | The loop variable ends as the value read from the last element. The loop succeeds exactly when the list is non-empty and every read succeeds. The first failing read's exception escapes, and an empty list raises `UnboundLocalError`. |
| Features.ReadDownloadInfo | scripts/Airbus_OneAtlas_Data_Downloader.py:53-54 | The loop body reads `href` and `resourceId` of the second download link, and fails exactly when either is missing. |
| Features.ProductInfo | scripts/Airbus_OneAtlas_Data_Downloader.py:47-55 | The lookup returns the download link and archive name of the last feature. It needs every feature to be readable and raises on an empty response. |
| Features.ReadGeometry | scripts/Airbus_OneAtlas_Data_Downloader_validation.py:123 | `feature["geometry"]` fails with `KeyError` exactly when the geometry is missing, and otherwise yields that geometry. |
| Features.ProductGeometry | scripts/Airbus_OneAtlas_Data_Downloader_validation.py:115-124 | The geometry lookup returns the last feature's geometry. It needs every feature to have one and raises on an empty response. |
| Summary.Summarise | scripts/Airbus_OneAtlas_Data_Downloader_validation.py:96-104 | A feature yields a summary exactly when it is well-formed. That means four text properties, `_links.download` with at least two entries, and a text `resourceId` in the second. The summary carries exactly those values. |
| Summary.LineOf | scripts/Airbus_OneAtlas_Data_Downloader_validation.py:96-104 | A feature contributes one line when well-formed and none otherwise. That line is the feature's summary: date, level, type, resourceId and `ID=` id, comma-separated. |
| Summary.Listing | scripts/Airbus_OneAtlas_Data_Downloader_validation.py:94-105 | The listing is never longer than the response. |
| Summary.ListingAppend | scripts/Airbus_OneAtlas_Data_Downloader_validation.py:94-105 | Listing a concatenation lists each part in turn, so features are handled independently and in order. |
| Summary.ListingSkipsMalformed | scripts/Airbus_OneAtlas_Data_Downloader_validation.py:103-104 | A malformed feature anywhere is dropped, and the listing of the rest is unaffected. |
| Summary.ListingKeepsWellFormed | scripts/Airbus_OneAtlas_Data_Downloader_validation.py:97-102 | A well-formed feature contributes its formatted line at its own position. |
| Summary.ListingMembers | scripts/Airbus_OneAtlas_Data_Downloader_validation.py:94-105 | A line is listed exactly when some feature of the response summarises to it. |
| Summary.ListingComplete | scripts/Airbus_OneAtlas_Data_Downloader_validation.py:94-105 | Nothing is dropped exactly when every feature is well-formed. |
| Summary.ListProducts | scripts/Airbus_OneAtlas_Data_Downloader_validation.py:94-105 | The append loop computes exactly the listing. |
| Summary.FormatHasId | scripts/Airbus_OneAtlas_Data_Downloader_validation.py:185 | Every summary line contains `=`, so reading an id from it never raises. |
| Summary.IdRoundTrip | scripts/Airbus_OneAtlas_Data_Downloader_validation.py:185 | The text after the first `=` of a summary line is the product id exactly when none of the four fields before it contains `=`. |
| Summary.DateRoundTrip | scripts/Airbus_OneAtlas_Data_Downloader_validation.py:194 | The text before the first `,` is the acquisition date exactly when the date contains no `,`. |
| Summary.FormatFields | scripts/Airbus_OneAtlas_Data_Downloader_validation.py:187 | A summary line has at least five `,`-separated fields. |
| Dialog.Initialize | scripts/Airbus_OneAtlas_Data_Downloader_validation.py:135-156 | The stripped stored key fills the key field. A key of valid shape also enables the selector and sets the bearer token and the product listing; otherwise the field shows the placeholder. The stored directory is shown when it is a directory, the placeholder when it is empty or the placeholder, and is otherwise left as it was. Nothing else changes. |
| Dialog.ValidateKey | scripts/Airbus_OneAtlas_Data_Downloader_validation.py:168-180 | The token field is disabled. A key is accepted exactly when it is non-empty and has no space; it is kept as typed, the selector, select-all and extract fields are enabled, and the token and listing are refreshed. A rejected key becomes the placeholder and those three fields are disabled. |
| Dialog.ValidateKeyIdempotent | scripts/Airbus_OneAtlas_Data_Downloader_validation.py:168-180 | A second validation changes nothing the first did not. |
| Dialog.SelectedId | scripts/Airbus_OneAtlas_Data_Downloader_validation.py:185 | Reading the id of a selector entry raises `IndexError` exactly when the entry has no `=`. |
| Dialog.LoggedField | scripts/Airbus_OneAtlas_Data_Downloader_validation.py:187 | The logged `split(",")[3]` succeeds exactly when a value with at least four fields is selected. No value raises `AttributeError`. |
| Dialog.ListedEntryParses | scripts/Airbus_OneAtlas_Data_Downloader_validation.py:185-187 | An entry the listing produced has an id and four fields, so neither read of the render step raises on it. |
| Dialog.DrawOne | scripts/Airbus_OneAtlas_Data_Downloader_validation.py:205-211 | One entry is drawn exactly when it names a product whose geometry lookup succeeds and the selector's value has four `,` fields. Its footprint has that geometry and is dated by the entry's first field. |
| Dialog.RenderAll | scripts/Airbus_OneAtlas_Data_Downloader_validation.py:203-211 | Drawing all footprints succeeds exactly when every entry names a product whose geometry lookup succeeds and, for a non-empty list, the selector's value has four `,` fields. It then gives one footprint per entry, in order. Each has the geometry looked up by the entry's id and is dated by the entry's first field. With nothing selected the loop raises. |
| Dialog.Render | scripts/Airbus_OneAtlas_Data_Downloader_validation.py:182-211 | Without select-all and with a selection, one footprint is drawn. That succeeds exactly when the selection names a product whose geometry lookup succeeds and has four `,` fields. With select-all, the footprints of all entries are drawn. When the first entry contains the placeholder, or when neither a selection nor select-all applies, the layer is unchanged. An empty choice list raises `IndexError`. |
| Dialog.Persist | scripts/Airbus_OneAtlas_Data_Downloader_validation.py:219-236 | The saved directory is the chosen one when it is a directory and the placeholder otherwise. The saved key is the key field as shown. |
| Dialog.RenderedBefore | scripts/Airbus_OneAtlas_Data_Downloader_validation.py:203-211 | The footprints the select-all loop has inserted when it stops are those of the entries before the first entry that cannot be drawn, in order. |
| Dialog.RenderAllDrawsEvery | scripts/Airbus_OneAtlas_Data_Downloader_validation.py:203-211 | The loop succeeds exactly when every entry is drawn before it stops, and then its footprints are exactly those drawn one entry at a time. |
| Dialog.RenderAllStopsAtFirstFailure | scripts/Airbus_OneAtlas_Data_Downloader_validation.py:203-211 | When the loop raises, it has stopped before the end of the list, and the exception is the one raised by the first entry that cannot be drawn. |
| Dialog.Update | scripts/Airbus_OneAtlas_Data_Downloader_validation.py:162-245 | A key field with no value raises after the token field is disabled, and nothing else changes. Otherwise the key check's effects always stay: the token field is disabled. A valid key is kept, enables select-all and extract, and refreshes the token and the listing. An invalid key shows the placeholder, disables the three fields and keeps the token and listing. Re-synchronising succeeds exactly when the redraw of the validated dialog does. On success the layer holds what it drew, the settings are saved (the key as shown, the directory as `Persist` chooses) and, with a valid key, the selector is enabled exactly when select-all is not ticked. When the redraw raises, nothing is saved, the layer holds what the loop inserted before raising, and the selector keeps the key check's state. The selection, select-all and directory fields are left as they were. |
| Dialog.ReopenAfterSave | scripts/Airbus_OneAtlas_Data_Downloader_validation.py:141-156 | Reopening the dialog on the saved settings shows the saved key, stripped, when that has a valid shape and the placeholder otherwise. It shows the saved directory when it is a directory and the placeholder otherwise. |
| Dialog.InitializedKeyIsStable | scripts/Airbus_OneAtlas_Data_Downloader_validation.py:141-147 | The key the dialog opens with, and the selector's enabled state, survive the first key check. |
| Dialog.UpdateWithoutSelectionSucceeds | scripts/Airbus_OneAtlas_Data_Downloader_validation.py:182-196 | With nothing selected and select-all not ticked, re-synchronising succeeds and leaves the layer alone. |
| Dialog.SelectAllWithoutSelectionFails | scripts/Airbus_OneAtlas_Data_Downloader_validation.py:198-206 | With a valid key, select-all ticked, nothing selected and a listing that does not start with the placeholder, the update raises. The layer is left empty, nothing is saved, and the selector stays enabled. |
| Dialog.UpdateMessages | scripts/Airbus_OneAtlas_Data_Downloader_validation.py:247-255 | The "No product selection has been made." error is set exactly when the selector is empty and select-all is `False`. Nothing else changes. |
| Dialog.MessagesAfterUpdate | scripts/Airbus_OneAtlas_Data_Downloader_validation.py:238-253 | After re-synchronising with a valid key, the error appears exactly when the selector is enabled and empty and select-all is `False`. |
| Downloader.ListingLine | scripts/Airbus_OneAtlas_Data_Downloader.py:42-44 | A line exists exactly when id, href and resourceId are all present and text. It is the three joined by `,`. |
| Downloader.ListingLineFields | scripts/Airbus_OneAtlas_Data_Downloader.py:42-44 | A line splits back into id, href and resourceId when none of them contains `,`. |
| Downloader.ProductLines | scripts/Airbus_OneAtlas_Data_Downloader.py:34-45 | The tool's listing has one line per feature, in order, and fails exactly when some feature is malformed (no skipping). |
| Downloader.Store | scripts/Airbus_OneAtlas_Data_Downloader.py:103-108 | A store only adds paths: at most one downloaded archive, never one already present, plus the directory it unpacks into. It reports no progress. An absent archive whose transfer fails raises `HTTPError`, and one whose file cannot be created raises `FileNotFoundError`; in both cases nothing is written or reported. |
| Downloader.Fetch | scripts/Airbus_OneAtlas_Data_Downloader.py:102-108 | A fetch (lookup then store) only adds paths, downloads at most one archive and reports no progress. When it ends without an exception, the lookup succeeded with a text archive name, the archive is present under the download directory and, when extract is `"true"`, so is its unpack directory. A failed lookup, a non-text name, a failed transfer or an uncreatable file raises before any file changes. |
| Downloader.StoreBehaviour | scripts/Airbus_OneAtlas_Data_Downloader.py:57-75 | A download happens exactly when the archive's path is absent, the transfer succeeds and the file can be created. A failed transfer of an absent archive raises `HTTPError`, an uncreatable file raises `FileNotFoundError`, and either way nothing changes. Once the archive is present, unpacking happens exactly when extract is `"true"`, the file is a zip and the target is not the archive itself, whether the archive was just downloaded or already there, and the target appears. A file that is not a zip raises `BadZipFile`; unpacking onto the archive itself raises `NotADirectoryError`. Nothing else changes. |
| Downloader.StoreTwice | scripts/Airbus_OneAtlas_Data_Downloader.py:103-106 | Storing again on the resulting files downloads nothing, changes nothing and ends the same way. |
| Downloader.StoreAgainAfterMore | scripts/Airbus_OneAtlas_Data_Downloader.py:118-123 | A store that succeeded, repeated after more files appeared, downloads nothing and succeeds. |
| Downloader.UnpackedDirectoryCountsAsPresent | scripts/Airbus_OneAtlas_Data_Downloader.py:75 | Once an archive has been unpacked, an archive whose path is that directory is skipped and never fetched, so its transfer cannot fail. |
| Downloader.FetchBehaviour | scripts/Airbus_OneAtlas_Data_Downloader.py:102-108 | For a looked-up product, the archive path is the directory joined with its name. It is downloaded exactly when it is absent, its transfer succeeds and the file can be created. Otherwise a failed transfer raises `HTTPError`, an uncreatable file raises `FileNotFoundError`, and nothing changes. The unpack target is that directory joined with the name less its extension. Unpacking happens exactly when extract is `"true"`, the file is a zip and the name has an extension; a name without one raises `NotADirectoryError`. |
| Downloader.FetchTwice | scripts/Airbus_OneAtlas_Data_Downloader.py:102-108 | Fetching the same product again downloads nothing and ends the same way. |
| Downloader.FetchAgainAfterMore | scripts/Airbus_OneAtlas_Data_Downloader.py:117-123 | A product fetched without error, fetched again after more files appeared, downloads nothing. |
| Downloader.HandlingThen | scripts/Airbus_OneAtlas_Data_Downloader.py:116-117 | Reporting "i of N" before a fetch is that step's only progress report. |
| Downloader.Sequence | scripts/Airbus_OneAtlas_Data_Downloader.py:115-124 | Consecutive steps together only add what they download or unpack, and their progress reports follow each other. |
| Downloader.Batch | scripts/Airbus_OneAtlas_Data_Downloader.py:113-124 | The loop reports `i of N`, `i+1 of N`, ... in list order, one report per product handled. It handles every product unless an exception stops it. It only adds paths. Every product handled before the exception, and every product when there is none, is stored: its archive is present and, when extract is `"true"`, so is its unpack directory. |
| Downloader.BatchFailsFirst | scripts/Airbus_OneAtlas_Data_Downloader.py:115-117 | When the lookup or store of the first listed product raises, the loop ends there with that exception and those files, after one progress report. |
| Downloader.BatchGoesOn | scripts/Airbus_OneAtlas_Data_Downloader.py:115-124 | When the first product is fetched without exception, the loop ends as the loop over the remaining products does, started from the files that fetch left, with one more progress report. |
| Downloader.BatchFailsInFetch | scripts/Airbus_OneAtlas_Data_Downloader.py:115-124 | When the loop raises, the exception is the one raised by fetching the last product it reported. That fetch starts from the files the earlier products left, which include the initial files, and it leaves exactly the loop's final files. |
| Downloader.StoreOfPresent | scripts/Airbus_OneAtlas_Data_Downloader.py:103-108 | Without extraction, storing an archive that is already present only reports the skip. |
| Downloader.FetchOfStored | scripts/Airbus_OneAtlas_Data_Downloader.py:102-108 | Without extraction, fetching a product that is already stored downloads nothing, changes nothing and raises nothing. |
| Downloader.BatchOfStoredSucceeds | scripts/Airbus_OneAtlas_Data_Downloader.py:115-124 | Without extraction, the loop over products that are all stored already downloads nothing, changes nothing and raises nothing. |
| Downloader.BatchTwice | scripts/Airbus_OneAtlas_Data_Downloader.py:115-124 | Running the loop again over the files it left downloads nothing and changes nothing. |
| Downloader.Main | scripts/Airbus_OneAtlas_Data_Downloader.py:98-124 | Single-product mode applies exactly when the all-products parameter is `"false"` or `""`. It reports the id after the first `=` and downloads at most one archive; a selection without `=` raises `IndexError`. A single-product run ends with the files and the exception of the fetch of that id, and without exception it leaves that product stored. A failed workspace listing raises before anything changes. All-products mode reports `1 of N` ... `N of N` with N the listing length, at least one report before any exception. It leaves stored every product handled before an exception, or every product when there is none. |
| Downloader.MainRunsBatch | scripts/Airbus_OneAtlas_Data_Downloader.py:109-124 | In all-products mode the run is the loop over the listed products, counting from 1 to the listing length. |
| Downloader.MainFailsInFetch | scripts/Airbus_OneAtlas_Data_Downloader.py:109-124 | An all-products run that raises raises what the fetch of the last reported product raised. That fetch starts from the files the earlier products left and leaves exactly the run's final files. |
| Downloader.StoredRunSucceeds | scripts/Airbus_OneAtlas_Data_Downloader.py:98-124 | A run without extraction whose selected product, or every listed product, is stored already downloads nothing, changes no file and raises nothing. |
| Downloader.RunTwice | scripts/Airbus_OneAtlas_Data_Downloader.py:98-124 | A second run with the same parameters on the resulting files downloads nothing and changes no file. |
| Downloader.AllProductsStopsOnUnknownLine | scripts/Airbus_OneAtlas_Data_Downloader.py:112-117 | When the search knows no product under the first whole listing line, the all-products run stops after reporting `1 of N`, with nothing downloaded. |

## Left out

- HTTP calls are not modelled: the token exchange, `/me`, the workspace and product searches, and the streamed GET. Their answers are function-typed inputs (`Environment`, `Server`), and a failure of the token, `/me` or search calls is not modelled.
- JSON decoding and `json.dumps` are not modelled. A feature is a record of optional fields whose values are text or "not text", and a geometry is the text the dialog would draw.
- arcpy is not modelled: layer and feature-class management, insert cursors, `AsShape`, symbology, the extent recalculation and the camera `scale *= 1.20` float adjustment. The results layer is reduced to its list of footprints.
- Reading and writing `settings.json` and the log files are not modelled. `Settings` is the value written, and log messages are events or nothing.
- Byte streaming in 4096-byte chunks is not modelled, nor a transfer that fails part-way. A download either answers with a success status and leaves the whole file, or raises before writing.
- Zip archive contents are not modelled. Extraction records only the target directory, assuming the vendor's archives are non-empty; an empty archive creates no directory and, unpacked onto its own path, raises nothing.
- Whether a file can be created at a path is an input fixed for the whole run (`Server.canWrite`). A directory that an unpack creates does not make later archive paths under it creatable.
- Files and directories are not told apart. Unpacking into a target that is some other product's archive file raises `NotADirectoryError` in the source; the model raises only when the target is the archive being unpacked.
- Windows `ntpath` rules for `path.join` and `splitext` are not modelled. Paths follow `posixpath`.
- `read_api_key`, `get_token` and `get_workspace_id` of the tool run happen before the mode choice and are abstracted into the `Server` inputs.
- The `AddMessage` texts "Started processing.", "All products selected", "Download Directory: ...", "Extracting product archive...", "Finished processing." and the start and finish of each download are not modelled. The log keeps the selection, progress, download or skip, and unpack events.
- `isLicensed` always answers true and is not modelled.

=== FILE: dialog.dfy ===
/** The tool dialog's validator (`ToolValidator` in the validation script):
    what the dialog shows when it opens, how it re-synchronises after every
    parameter change, and the message it attaches to the product selector.
    Vendor calls, `os.path.isdir` and the map layer are abstracted: the
    vendor answers are inputs, and the layer is the list of footprints it
    holds. */
module Dialog {
  import opened Wrappers
  import opened Features
  import Text
  import Summary

  /** The text the key field shows while no usable key has been entered. */
  const KeyPlaceholder := "Enter your valid OneAtlas Data API Key here"

  /** The text the download directory shows and is saved as while no
      directory has been chosen. */
  const NoDirectory := "Select directory for downloading"

  /** The error attached to the product selector. */
  const NoSelection := "No product selection has been made."

  /** The key-shape test of the validator: non-empty, without a space. */
  predicate KeyLooksValid(key: string) {
    key != "" && ' ' !in key
  }

  /** One polygon of the results layer: a product's footprint and its
      acquisition date. */
  datatype Footprint = Footprint(geometry: string, acquisitionDate: string)

  /** The dialog parameters the validator reads and writes:
      0 API key, 1 product selector (value, choice list, enabled, error),
      2 select-all, 3 download directory, 4 extract, 5 bearer token; and the
      footprints currently in the results layer. An unset value is `None`. */
  datatype Dialog = Dialog(
    apiKey: Option<string>,
    selected: Option<string>,
    choices: seq<string>,
    selectAll: Option<bool>,
    downloadDir: Option<string>,
    token: Option<string>,
    selectedEnabled: bool,
    selectAllEnabled: bool,
    extractEnabled: bool,
    tokenEnabled: bool,
    selectionError: Option<string>,
    footprints: seq<Footprint>)

  /** The persisted settings record. */
  datatype Settings = Settings(apiKey: string, downloadDir: string)

  /** What the validator asks of the outside world: an access token for a
      key, the workspace listing response for an Authorization header, the
      product search response for a product id, and `os.path.isdir`. */
  datatype Environment = Environment(
    token: string -> string,
    workspace: string -> seq<Feature>,
    search: string -> seq<Feature>,
    isDir: string -> bool)

  /** Python `str(value)` of a parameter value. */
  function Shown(v: Option<string>): string {
    match v
    case None => "None"
    case Some(s) => s
  }

  /** `initializeParameters`: the stored key (stripped) fills the key field
      and, when it looks valid, a token and the product list are fetched;
      the stored download directory is shown when it is a directory, the
      placeholder when it is empty or the placeholder, and is otherwise left
      as the dialog had it. */
  function Initialize(stored: Settings, d: Dialog, env: Environment): (r: Dialog)
    ensures var key := Text.Strip(stored.apiKey);
      if KeyLooksValid(key) then
        var bearer := "Bearer " + env.token(key);
        && r.apiKey == Some(key) && r.selectedEnabled
        && r.token == Some(bearer)
        && r.choices == Summary.Listing(env.workspace(bearer))
      else
        && r.apiKey == Some(KeyPlaceholder) && !r.selectedEnabled
        && r.token == d.token && r.choices == d.choices
    ensures env.isDir(stored.downloadDir) ==> r.downloadDir == Some(stored.downloadDir)
    ensures !env.isDir(stored.downloadDir) && stored.downloadDir in {"", NoDirectory} ==>
      r.downloadDir == Some(NoDirectory)
    ensures !env.isDir(stored.downloadDir) && stored.downloadDir !in {"", NoDirectory} ==>
      r.downloadDir == d.downloadDir
    ensures r.selected == d.selected && r.selectAll == d.selectAll
      && r.selectAllEnabled == d.selectAllEnabled && r.extractEnabled == d.extractEnabled
      && r.tokenEnabled == d.tokenEnabled && r.selectionError == d.selectionError
      && r.footprints == d.footprints
  {
    var key := Text.Strip(stored.apiKey);
    var d1 :=
      if !KeyLooksValid(key) then
        d.(apiKey := Some(KeyPlaceholder), selectedEnabled := false)
      else
        var bearer := "Bearer " + env.token(key);
        d.(apiKey := Some(key), token := Some(bearer), selectedEnabled := true,
           choices := Summary.Listing(env.workspace(bearer)));
    var dir := stored.downloadDir;
    if env.isDir(dir) then d1.(downloadDir := Some(dir))
    else if dir == "" || dir == NoDirectory then d1.(downloadDir := Some(NoDirectory))
    else d1
  }

  /** The first half of `updateParameters`: the token field is disabled; a
      key that does not look valid is replaced by the placeholder and the
      selector, select-all and extract fields are disabled; a valid key
      enables them and refreshes the token and the product list. The
      `strip()` on the key is compared, not assigned, so the key is checked
      as typed. */
  function ValidateKey(d: Dialog, env: Environment): (r: Dialog)
    requires d.apiKey.Some?
    ensures r.apiKey.Some? && !r.tokenEnabled
    ensures KeyLooksValid(d.apiKey.value) <==> KeyLooksValid(r.apiKey.value)
    ensures KeyLooksValid(d.apiKey.value) ==>
      var bearer := "Bearer " + env.token(d.apiKey.value);
      && r.apiKey == d.apiKey
      && r.selectedEnabled && r.selectAllEnabled && r.extractEnabled
      && r.token == Some(bearer)
      && r.choices == Summary.Listing(env.workspace(bearer))
    ensures !KeyLooksValid(d.apiKey.value) ==>
      && r.apiKey == Some(KeyPlaceholder)
      && !r.selectedEnabled && !r.selectAllEnabled && !r.extractEnabled
      && r.token == d.token && r.choices == d.choices
    ensures r.selected == d.selected && r.selectAll == d.selectAll
      && r.downloadDir == d.downloadDir && r.selectionError == d.selectionError
      && r.footprints == d.footprints
  {
    var key := d.apiKey.value;
    var d1 := d.(tokenEnabled := false);
    if !KeyLooksValid(key) then
      assert KeyPlaceholder[5] == ' ';
      d1.(apiKey := Some(KeyPlaceholder), selectedEnabled := false,
          selectAllEnabled := false, extractEnabled := false)
    else
      var bearer := "Bearer " + env.token(key);
      d1.(selectedEnabled := true, selectAllEnabled := true, extractEnabled := true,
          token := Some(bearer), choices := Summary.Listing(env.workspace(bearer)))
  }

  /** Validating the key twice changes nothing the first pass did not. */
  lemma ValidateKeyIdempotent(d: Dialog, env: Environment)
    requires d.apiKey.Some?
    ensures ValidateKey(ValidateKey(d, env), env) == ValidateKey(d, env)
  {
    var once := ValidateKey(d, env);
    var twice := ValidateKey(once, env);
    if KeyLooksValid(d.apiKey.value) {
      assert twice.apiKey == once.apiKey;
    }
  }

  /** The product id a selector entry names, as `split("=", 1)[1]` reads it. */
  function SelectedId(entry: string): (r: Result<string, Error>)
    ensures r.Success? <==> Summary.ProductIdOf(entry).Some?
    ensures r.Success? ==> Summary.ProductIdOf(entry) == Some(r.value)
    ensures r.Failure? ==> r.error == IndexError
  {
    match Summary.ProductIdOf(entry)
    case None => Failure(IndexError)
    case Some(id) => Success(id)
  }

  /** The log lines of the render step evaluate `split(",")[3]` of the
      selector's value: that raises AttributeError when there is no value
      and IndexError when it has fewer than four fields. */
  function LoggedField(selected: Option<string>): (r: Result<string, Error>)
    ensures r.Success? <==> selected.Some? && |Text.Split(selected.value, ',')| >= 4
    ensures selected.None? ==> r == Failure(AttributeError)
  {
    match selected
    case None => Failure(AttributeError)
    case Some(v) =>
      var fields := Text.Split(v, ',');
      if |fields| < 4 then Failure(IndexError) else Success(fields[3])
  }

  /** An entry the listing produced names a product and has the four fields
      the log line reads, so neither `split` of the render step raises on
      it. */
  lemma ListedEntryParses(fs: seq<Feature>, entry: string)
    requires entry in Summary.Listing(fs)
    ensures SelectedId(entry).Success?
    ensures LoggedField(Some(entry)).Success?
  {
    Summary.ListingMembers(fs, entry);
    var i :| 0 <= i < |fs| && Summary.Summarise(fs[i]).Some?
             && Summary.Format(Summary.Summarise(fs[i]).value) == entry;
    Summary.FormatHasId(Summary.Summarise(fs[i]).value);
    Summary.FormatFields(Summary.Summarise(fs[i]).value);
  }

  /** An entry whose footprint can be drawn: it names a product and the
      geometry lookup for that product succeeds. */
  predicate Drawable(entry: string, env: Environment) {
    SelectedId(entry).Success? && ProductGeometry(env.search(SelectedId(entry).value)).Success?
  }

  /** Every entry of a non-empty list is drawable exactly when its first
      entry and every entry of the rest are. */
  lemma DrawableSplit(entries: seq<string>, env: Environment)
    requires |entries| > 0
    ensures (forall k :: 0 <= k < |entries| ==> Drawable(entries[k], env)) <==>
      Drawable(entries[0], env) && forall k :: 0 <= k < |entries| - 1 ==> Drawable(entries[1..][k], env)
  {
    assert forall k :: 1 <= k < |entries| ==> entries[k] == entries[1..][k - 1];
  }

  /** One entry of the render step: its id after `=`, the geometry lookup,
      the log line's fourth field of the selector's value, and then the
      footprint dated by the entry's first field. */
  function DrawOne(entry: string, selected: Option<string>, env: Environment): (r: Result<Footprint, Error>)
    ensures r.Success? <==> Drawable(entry, env) && LoggedField(selected).Success?
    ensures r.Success? ==>
      && ProductGeometry(env.search(Summary.ProductIdOf(entry).value)) == Success(r.value.geometry)
      && r.value.acquisitionDate == Summary.AcquisitionDateOf(entry)
  {
    var id :- SelectedId(entry);
    var geometry :- ProductGeometry(env.search(id));
    var _ :- LoggedField(selected);
    Success(Footprint(geometry, Summary.AcquisitionDateOf(entry)))
  }

  /** The select-all loop of the render step: for every entry in order, look
      up its geometry by the id after `=`, log, and add its footprint dated
      by the entry's first field. The first exception stops the loop. */
  function RenderAll(entries: seq<string>, selected: Option<string>, env: Environment): (r: Result<seq<Footprint>, Error>)
    ensures r.Success? ==> |r.value| == |entries|
    ensures r.Success? ==> forall k :: 0 <= k < |entries| ==>
      && Summary.ProductIdOf(entries[k]).Some?
      && ProductGeometry(env.search(Summary.ProductIdOf(entries[k]).value)) == Success(r.value[k].geometry)
      && r.value[k].acquisitionDate == Summary.AcquisitionDateOf(entries[k])
    ensures r.Success? <==>
      && (forall k :: 0 <= k < |entries| ==> Drawable(entries[k], env))
      && (|entries| > 0 ==> LoggedField(selected).Success?)
    ensures |entries| > 0 && selected.None? ==> r.Failure?
    decreases |entries|
  {
    if |entries| == 0 then Success([])
    else
      DrawableSplit(entries, env);
      var footprint :- DrawOne(entries[0], selected, env);
      var rest :- RenderAll(entries[1..], selected, env);
      assert forall k :: 1 <= k < |entries| ==> entries[k] == entries[1..][k - 1];
      Success([footprint] + rest)
  }

  /** The footprints the select-all loop has inserted when it stops: those
      of the entries before the first one that raises, or of all of them. */
  function RenderedBefore(entries: seq<string>, selected: Option<string>, env: Environment): (r: seq<Footprint>)
    ensures |r| <= |entries|
    ensures forall k :: 0 <= k < |r| ==> DrawOne(entries[k], selected, env) == Success(r[k])
    ensures |r| < |entries| ==> DrawOne(entries[|r|], selected, env).Failure?
    decreases |entries|
  {
    if |entries| == 0 then []
    else
      match DrawOne(entries[0], selected, env)
      case Failure(_) => []
      case Success(footprint) =>
        var tail := entries[1..];
        var rest := RenderedBefore(tail, selected, env);
        var r := [footprint] + rest;
        assert forall k :: 0 <= k < |r| ==> DrawOne(entries[k], selected, env) == Success(r[k]) by {
          forall k | 0 <= k < |r|
            ensures DrawOne(entries[k], selected, env) == Success(r[k])
          {
            if k > 0 {
              assert entries[k] == tail[k - 1] && r[k] == rest[k - 1];
            }
          }
        }
        assert |r| < |entries| ==> entries[|r|] == tail[|rest|];
        r
  }

  /** One step of the select-all loop: the first entry's exception, or its
      footprint followed by the outcome of the rest. */
  lemma RenderAllStep(entries: seq<string>, selected: Option<string>, env: Environment)
    requires |entries| > 0
    ensures var first := DrawOne(entries[0], selected, env);
      var rest := RenderAll(entries[1..], selected, env);
      var all := RenderAll(entries, selected, env);
      && (first.Failure? ==> all == Failure(first.error))
      && (first.Success? && rest.Failure? ==> all == Failure(rest.error))
      && (first.Success? && rest.Success? ==> all == Success([first.value] + rest.value))
  {
  }

  /** The loop succeeds exactly when every entry can be drawn, and then
      draws exactly the footprints the entries give one by one. */
  lemma RenderAllDrawsEvery(entries: seq<string>, selected: Option<string>, env: Environment)
    ensures var drawn := RenderedBefore(entries, selected, env);
      var all := RenderAll(entries, selected, env);
      && (all.Success? <==> |drawn| == |entries|)
      && (all.Success? ==> all.value == drawn)
  {
    var drawn := RenderedBefore(entries, selected, env);
    var all := RenderAll(entries, selected, env);
    if all.Success? {
      assert forall k :: 0 <= k < |entries| ==> DrawOne(entries[k], selected, env).Success?;
      forall k | 0 <= k < |entries|
        ensures all.value[k] == drawn[k]
      {
        assert DrawOne(entries[k], selected, env) == Success(drawn[k]);
      }
    }
    if |drawn| == |entries| && |entries| > 0 {
      assert DrawOne(entries[0], selected, env).Success?;
      forall k | 0 <= k < |entries|
        ensures Drawable(entries[k], env)
      {
        assert DrawOne(entries[k], selected, env) == Success(drawn[k]);
      }
    }
  }

  /** When the loop raises, the exception is that of the first entry that
      cannot be drawn. */
  lemma {:induction false} RenderAllStopsAtFirstFailure(entries: seq<string>, selected: Option<string>, env: Environment)
    ensures var drawn := RenderedBefore(entries, selected, env);
      var all := RenderAll(entries, selected, env);
      all.Failure? ==> |drawn| < |entries| && all.error == DrawOne(entries[|drawn|], selected, env).error
    decreases |entries|
  {
    RenderAllDrawsEvery(entries, selected, env);
    if |entries| > 0 {
      var rest := entries[1..];
      RenderAllStopsAtFirstFailure(rest, selected, env);
      RenderAllStep(entries, selected, env);
      var first := DrawOne(entries[0], selected, env);
      var drawn := RenderedBefore(entries, selected, env);
      var restDrawn := RenderedBefore(rest, selected, env);
      if first.Failure? {
        assert drawn == [];
      } else {
        assert drawn == [first.value] + restDrawn;
        if RenderAll(entries, selected, env).Failure? {
          assert entries[|drawn|] == rest[|restDrawn|];
        }
      }
    }
  }

  /** The render step of `updateParameters` (the results layer after it).
      Without select-all, a selection whose list does not start with the
      placeholder replaces the layer with that product's footprint. With
      select-all, a list that does not start with the placeholder replaces
      the layer with one footprint per entry. Otherwise the layer is left as
      it was. Reading the first entry of an empty list raises IndexError. */
  function Render(d: Dialog, env: Environment): (r: Result<seq<Footprint>, Error>)
    ensures d.selectAll != Some(true) && d.selected.None? ==> r == Success(d.footprints)
    ensures (d.selectAll != Some(true) && d.selected.Some? && r.Success?
             && |d.choices| > 0 && !Text.Contains(d.choices[0], KeyPlaceholder)) ==>
      && |r.value| == 1
      && Summary.ProductIdOf(d.selected.value).Some?
      && ProductGeometry(env.search(Summary.ProductIdOf(d.selected.value).value)) == Success(r.value[0].geometry)
      && r.value[0].acquisitionDate == Summary.AcquisitionDateOf(d.selected.value)
    ensures (d.selectAll != Some(true) && d.selected.Some?
             && |d.choices| > 0 && !Text.Contains(d.choices[0], KeyPlaceholder)) ==>
      (r.Success? <==> Drawable(d.selected.value, env) && LoggedField(d.selected).Success?)
    ensures (d.selectAll == Some(true) && |d.choices| > 0
             && !Text.Contains(d.choices[0], KeyPlaceholder)) ==>
      r == RenderAll(d.choices, d.selected, env)
    ensures (d.selectAll == Some(true) || d.selected.Some?) && |d.choices| == 0 ==> r == Failure(IndexError)
    ensures |d.choices| > 0 && Text.Contains(d.choices[0], KeyPlaceholder) ==> r == Success(d.footprints)
  {
    if d.selectAll != Some(true) then
      match d.selected
      case None => Success(d.footprints)
      case Some(entry) =>
        if |d.choices| == 0 then Failure(IndexError)
        else if Text.Contains(d.choices[0], KeyPlaceholder) then Success(d.footprints)
        else
          var footprint :- DrawOne(entry, d.selected, env);
          Success([footprint])
    else if |d.choices| == 0 then Failure(IndexError)
    else if Text.Contains(d.choices[0], KeyPlaceholder) then Success(d.footprints)
    else RenderAll(d.choices, d.selected, env)
  }

  /** The settings `updateParameters` writes back: the download directory
      when it is one, the placeholder otherwise, and the key field as shown. */
  function Persist(d: Dialog, env: Environment): (s: Settings)
    requires d.apiKey.Some?
    ensures s.apiKey == d.apiKey.value
    ensures env.isDir(Shown(d.downloadDir)) ==> s.downloadDir == Shown(d.downloadDir)
    ensures !env.isDir(Shown(d.downloadDir)) ==> s.downloadDir == NoDirectory
  {
    var dir := Shown(d.downloadDir);
    Settings(d.apiKey.value, if env.isDir(dir) then dir else NoDirectory)
  }

  /** Reopening the dialog on the settings it saved shows the saved key,
      stripped, when that looks valid and the placeholder otherwise, and the
      saved directory when it is one and the placeholder otherwise. */
  lemma ReopenAfterSave(d: Dialog, env: Environment, other: Dialog)
    requires d.apiKey.Some?
    ensures var r := Initialize(Persist(d, env), other, env);
      var key := Text.Strip(d.apiKey.value);
      var dir := Shown(d.downloadDir);
      && r.apiKey == Some(if KeyLooksValid(key) then key else KeyPlaceholder)
      && r.downloadDir == Some(if env.isDir(dir) then dir else NoDirectory)
  {
  }

  /** The key the dialog opens with survives the first re-synchronisation:
      validating it keeps the key and the selector's enabled state. */
  lemma InitializedKeyIsStable(stored: Settings, d: Dialog, env: Environment)
    ensures var opening := Initialize(stored, d, env);
      var checked := ValidateKey(opening, env);
      checked.apiKey == opening.apiKey && checked.selectedEnabled == opening.selectedEnabled
  {
    assert KeyPlaceholder[5] == ' ';
  }

  /** The results layer after the render step raised: the select-all loop
      has cleared the layer and inserted the footprints of the entries
      before the failing one; every other exception of the render step is
      raised before the layer is touched. */
  function Interrupted(d: Dialog, env: Environment): seq<Footprint> {
    if d.selectAll == Some(true) && |d.choices| > 0 && !Text.Contains(d.choices[0], KeyPlaceholder)
    then RenderedBefore(d.choices, d.selected, env)
    else d.footprints
  }

  /** The outcome of `updateParameters`: the dialog as the call leaves it,
      the settings written (none when it raised first), and the exception
      that ended it early, if any. */
  datatype Synced = Synced(dialog: Dialog, saved: Option<Settings>, failure: Option<Error>)

  /** `updateParameters`: validate the key, redraw the results layer, save
      the settings, then enable the selector exactly when the key is valid
      and select-all is not ticked. A key field with no value raises at its
      `strip()` call, after the token field was disabled. An exception of
      the redraw keeps the key check's effects and the partly redrawn
      layer, and skips the saving and the selector rule. */
  function Update(d: Dialog, env: Environment): (r: Synced)
    ensures d.apiKey.None? ==> r == Synced(d.(tokenEnabled := false), None, Some(AttributeError))
    ensures r.failure.None? <==> d.apiKey.Some? && Render(ValidateKey(d, env), env).Success?
    ensures r.saved.Some? <==> r.failure.None?
    ensures d.apiKey.Some? ==>
      var d' := r.dialog;
      var key := d.apiKey.value;
      && !d'.tokenEnabled
      && (KeyLooksValid(key) ==>
            var bearer := "Bearer " + env.token(key);
            && d'.apiKey == d.apiKey
            && d'.selectAllEnabled && d'.extractEnabled
            && d'.token == Some(bearer)
            && d'.choices == Summary.Listing(env.workspace(bearer)))
      && (!KeyLooksValid(key) ==>
            && d'.apiKey == Some(KeyPlaceholder)
            && !d'.selectedEnabled && !d'.selectAllEnabled && !d'.extractEnabled
            && d'.token == d.token && d'.choices == d.choices)
      && d'.selected == d.selected && d'.selectAll == d.selectAll
      && d'.downloadDir == d.downloadDir && d'.selectionError == d.selectionError
    ensures d.apiKey.Some? && r.failure.Some? ==>
      && r.failure == Some(Render(ValidateKey(d, env), env).error)
      && r.dialog.footprints == Interrupted(ValidateKey(d, env), env)
      && (r.dialog.selectedEnabled <==> KeyLooksValid(d.apiKey.value))
    ensures r.failure.None? ==>
      var d' := r.dialog;
      var s := r.saved.value;
      && d'.footprints == Render(ValidateKey(d, env), env).value
      && (KeyLooksValid(d.apiKey.value) ==> (d'.selectedEnabled <==> d.selectAll != Some(true)))
      && s.apiKey == d'.apiKey.value
      && (env.isDir(Shown(d.downloadDir)) ==> s.downloadDir == Shown(d.downloadDir))
      && (!env.isDir(Shown(d.downloadDir)) ==> s.downloadDir == NoDirectory)
  {
    if d.apiKey.None? then Synced(d.(tokenEnabled := false), None, Some(AttributeError))
    else
      var d1 := ValidateKey(d, env);
      match Render(d1, env)
      case Failure(e) => Synced(d1.(footprints := Interrupted(d1, env)), None, Some(e))
      case Success(shown) =>
        var d2 := d1.(footprints := shown);
        var settings := Persist(d2, env);
        var d3 :=
          if KeyLooksValid(d2.apiKey.value) then d2.(selectedEnabled := d2.selectAll != Some(true))
          else d2;
        Synced(d3, Some(settings), None)
  }

  /** With nothing selected and select-all not ticked, re-synchronising
      never fails once the key field has a value. */
  lemma UpdateWithoutSelectionSucceeds(d: Dialog, env: Environment)
    requires d.apiKey.Some? && d.selected.None? && d.selectAll != Some(true)
    ensures Update(d, env).failure.None?
    ensures Update(d, env).dialog.footprints == d.footprints
  {
    var d1 := ValidateKey(d, env);
    assert Render(d1, env) == Success(d.footprints);
  }

  /** With a valid key, select-all ticked and nothing selected, drawing the
      footprints raises at the first entry (its log line reads the empty
      selector): the layer is left empty, nothing is saved and the selector
      stays enabled. */
  lemma SelectAllWithoutSelectionFails(d: Dialog, env: Environment)
    requires d.apiKey.Some? && KeyLooksValid(d.apiKey.value)
    requires d.selectAll == Some(true) && d.selected.None?
    requires var listing := Summary.Listing(env.workspace("Bearer " + env.token(d.apiKey.value)));
      |listing| > 0 && !Text.Contains(listing[0], KeyPlaceholder)
    ensures var r := Update(d, env);
      && r.failure.Some? && r.saved.None?
      && r.dialog.footprints == [] && r.dialog.selectedEnabled
  {
    var d1 := ValidateKey(d, env);
    assert DrawOne(d1.choices[0], None, env).Failure?;
  }

  /** `updateMessages`: the selector reports that no product is selected
      exactly when it has no value and select-all is explicitly unticked. */
  function UpdateMessages(d: Dialog): (r: Dialog)
    ensures r.selectionError == Some(NoSelection) || r.selectionError == d.selectionError
    ensures ((d.selected.None? || d.selected == Some("")) && d.selectAll == Some(false))
      ==> r.selectionError == Some(NoSelection)
    ensures !((d.selected.None? || d.selected == Some("")) && d.selectAll == Some(false))
      ==> r == d
    ensures r.(selectionError := d.selectionError) == d
  {
    if (d.selected.None? || d.selected == Some("")) && d.selectAll == Some(false) then
      d.(selectionError := Some(NoSelection))
    else d
  }

  /** After a successful re-synchronisation with a valid key, the "no
      selection" error is raised exactly when the selector is enabled and
      empty and select-all is explicitly unticked; an unset select-all
      raises nothing. */
  lemma MessagesAfterUpdate(d: Dialog, env: Environment)
    requires d.apiKey.Some? && KeyLooksValid(d.apiKey.value)
    requires Update(d, env).failure.None?
    requires d.selectionError.None?
    ensures var d' := UpdateMessages(Update(d, env).dialog);
      d'.selectionError == Some(NoSelection) <==>
        (d'.selectedEnabled && d.selectAll == Some(false)
         && (d.selected.None? || d.selected == Some("")))
  {
  }
}

=== FILE: downloader.dfy ===
/** The download tool (`__main__` of the downloader script): either one
    selected product or every product of the workspace is looked up,
    downloaded unless a file of its archive name is already in the download
    directory, and unpacked when the extract parameter is exactly "true".
    The file system is the set of paths present; the vendor's answers, the
    HTTP status of a transfer and whether an archive can be opened are
    inputs. `AddMessage` output is the run's event log. */
module Downloader {
  import opened Wrappers
  import opened Features
  import Text
  import Paths

  /** The tool's text parameters that drive a run. */
  datatype Parameters = Parameters(
    selectedProduct: string,
    allProducts: string,
    downloadDir: string,
    extract: string)

  /** What the outside world answers: the workspace listing response, the
      product search response for a product id, whether the streamed GET of
      a download link answers with a success status, whether a file can be
      created at a path (its directory exists), and whether the file at a
      path opens as a zip archive. */
  datatype Server = Server(
    workspace: seq<Feature>,
    search: string -> seq<Feature>,
    transferOk: Value -> bool,
    canWrite: string -> bool,
    isZip: string -> bool)

  /** The progress a run reports. */
  datatype Event =
    | Selected(product: string)
    | Handling(index: nat, count: nat)
    | Downloaded(path: string)
    | Skipped(path: string)
    | Extracted(archive: string, target: string)

  /** The outcome of a run: the files present afterwards, what was reported,
      and the exception that ended it early, if any. Files written before
      the exception stay on disk. */
  datatype Run = Run(files: set<string>, log: seq<Event>, failure: Option<Error>)

  /** A view of a log: what `view` picks from each event, in order. */
  function Collect<T>(log: seq<Event>, view: Event -> seq<T>): seq<T>
    decreases |log|
  {
    if |log| == 0 then [] else view(log[0]) + Collect(log[1..], view)
  }

  /** The view of a concatenated log is the concatenation of the views. */
  lemma {:induction false} CollectAppend<T>(a: seq<Event>, b: seq<Event>, view: Event -> seq<T>)
    ensures Collect(a + b, view) == Collect(a, view) + Collect(b, view)
    decreases |a|
  {
    if |a| == 0 {
      assert a + b == b;
    } else {
      assert (a + b)[0] == a[0] && (a + b)[1..] == a[1..] + b;
      CollectAppend(a[1..], b, view);
    }
  }

  function DownloadOf(e: Event): seq<string> {
    if e.Downloaded? then [e.path] else []
  }

  function ProgressOf(e: Event): seq<(nat, nat)> {
    if e.Handling? then [(e.index, e.count)] else []
  }

  function ExtractionOf(e: Event): seq<(string, string)> {
    if e.Extracted? then [(e.archive, e.target)] else []
  }

  function TargetOf(e: Event): seq<string> {
    if e.Extracted? then [e.target] else []
  }

  /** The paths downloaded, in order. */
  function Downloads(log: seq<Event>): seq<string> {
    Collect(log, DownloadOf)
  }

  /** The "handling product i of N" reports, in order. */
  function Progress(log: seq<Event>): seq<(nat, nat)> {
    Collect(log, ProgressOf)
  }

  /** The archives unpacked, in order, with their target directories. */
  function Extractions(log: seq<Event>): seq<(string, string)> {
    Collect(log, ExtractionOf)
  }

  /** The directories unpacked into, in order: the second components of
      `Extractions`. */
  function Targets(log: seq<Event>): seq<string> {
    Collect(log, TargetOf)
  }

  /** Each view of a concatenated log is the concatenation of the views. */
  lemma LogAppend(a: seq<Event>, b: seq<Event>)
    ensures Downloads(a + b) == Downloads(a) + Downloads(b)
    ensures Progress(a + b) == Progress(a) + Progress(b)
    ensures Extractions(a + b) == Extractions(a) + Extractions(b)
    ensures Targets(a + b) == Targets(a) + Targets(b)
  {
    CollectAppend(a, b, DownloadOf);
    CollectAppend(a, b, ProgressOf);
    CollectAppend(a, b, ExtractionOf);
    CollectAppend(a, b, TargetOf);
  }

  /** A one-event log shows what the view picks from that event. */
  lemma OneView<T>(e: Event, view: Event -> seq<T>)
    ensures Collect([e], view) == view(e)
  {
    assert [e][0] == e && [e][1..] == [];
  }

  /** What a single event contributes to each view of the log. */
  lemma OneEvent(e: Event)
    ensures Downloads([e]) == if e.Downloaded? then [e.path] else []
    ensures Progress([e]) == if e.Handling? then [(e.index, e.count)] else []
    ensures Extractions([e]) == if e.Extracted? then [(e.archive, e.target)] else []
    ensures Targets([e]) == if e.Extracted? then [e.target] else []
  {
    OneView(e, DownloadOf);
    OneView(e, ProgressOf);
    OneView(e, ExtractionOf);
    OneView(e, TargetOf);
  }

  /** A run only adds paths: the archives it reports downloading, none of
      which was present before, and the directories it reports unpacking
      into. */
  ghost predicate OnlyAdds(files: set<string>, r: Run) {
    && files <= r.files
    && (forall q :: q in r.files <==> q in files || q in Downloads(r.log) || q in Targets(r.log))
    && (forall q :: q in Downloads(r.log) ==> q !in files)
  }

  /** The reports read `i of n`, `i + 1 of n`, ... in order. */
  predicate CountsFrom(ps: seq<(nat, nat)>, i: nat, n: nat) {
    forall k :: 0 <= k < |ps| ==> ps[k] == (i + k, n)
  }

  /** One line of the downloader's own listing, `id,href,resourceId`, read
      left to right as Python evaluates the concatenation. */
  function ListingLine(f: Feature): (r: Result<string, Error>)
    ensures r.Success? <==>
      && Property(f, "id").Success? && Property(f, "id").value.Str?
      && DownloadEntry(f).Success?
      && "href" in DownloadEntry(f).value && DownloadEntry(f).value["href"].Str?
      && "resourceId" in DownloadEntry(f).value && DownloadEntry(f).value["resourceId"].Str?
    ensures r.Success? ==> r.value == Text.JoinWith(
      [Property(f, "id").value.text,
       DownloadEntry(f).value["href"].text,
       DownloadEntry(f).value["resourceId"].text], ',')
  {
    var id :- Property(f, "id");
    var idText :- AsText(id);
    var entry :- DownloadEntry(f);
    var href :- Field(entry, "href");
    var hrefText :- AsText(href);
    var resourceId :- Field(entry, "resourceId");
    var resourceText :- AsText(resourceId);
    assert Text.JoinWith([idText, hrefText, resourceText], ',')
        == idText + [','] + Text.JoinWith([hrefText, resourceText], ',');
    Success(idText + "," + hrefText + "," + resourceText)
  }

  /** A listing line splits back into its three fields when none of them
      contains a comma. */
  lemma ListingLineFields(f: Feature)
    requires ListingLine(f).Success?
    ensures var id := Property(f, "id").value.text;
      var href := DownloadEntry(f).value["href"].text;
      var res := DownloadEntry(f).value["resourceId"].text;
      (',' !in id && ',' !in href && ',' !in res) ==>
        Text.Split(ListingLine(f).value, ',') == [id, href, res]
  {
    var id := Property(f, "id").value.text;
    var href := DownloadEntry(f).value["href"].text;
    var res := DownloadEntry(f).value["resourceId"].text;
    if ',' !in id && ',' !in href && ',' !in res {
      Text.JoinSplit([id, href, res], ',');
    }
  }

  /** `get_products_in_workspace` of the downloader: one line per feature,
      in response order, with no skipping: the first malformed feature
      raises. */
  function ProductLines(fs: seq<Feature>): (r: Result<seq<string>, Error>)
    ensures r.Success? <==> forall i :: 0 <= i < |fs| ==> ListingLine(fs[i]).Success?
    ensures r.Success? ==> (|r.value| == |fs|
                            && forall i :: 0 <= i < |fs| ==> r.value[i] == ListingLine(fs[i]).value)
    decreases |fs|
  {
    if |fs| == 0 then Success([])
    else
      var line :- ListingLine(fs[0]);
      var rest :- ProductLines(fs[1..]);
      assert forall i :: 1 <= i < |fs| ==> fs[i] == fs[1..][i - 1];
      Success([line] + rest)
  }

  /** The report for an archive path: downloaded when it was absent,
      skipped when it was already there. */
  function Step(files: set<string>, path: string): Event {
    if path !in files then Downloaded(path) else Skipped(path)
  }

  /** Downloading or skipping only adds the archive's path, and only when
      it was absent. */
  lemma StepAdds(files: set<string>, path: string, failure: Option<Error>)
    ensures OnlyAdds(files, Run(files + {path}, [Step(files, path)], failure))
    ensures Downloads([Step(files, path)]) == if path in files then [] else [path]
    ensures Progress([Step(files, path)]) == []
  {
    OneEvent(Step(files, path));
  }

  /** Downloading or skipping, then unpacking, only adds the archive's path
      (only when it was absent) and the target directory. */
  lemma StepThenExtractAdds(files: set<string>, path: string, target: string)
    ensures var log := [Step(files, path), Extracted(path, target)];
      && OnlyAdds(files, Run(files + {path} + {target}, log, None))
      && Downloads(log) == Downloads([Step(files, path)])
      && Progress(log) == []
  {
    var step := Step(files, path);
    var x := Extracted(path, target);
    var log := [step, x];
    OneEvent(step);
    OneEvent(x);
    assert [step] + [x] == log;
    LogAppend([step], [x]);
    assert Targets(log) == [target];
    assert Downloads(log) == Downloads([step]) == if path in files then [] else [path];
    assert Progress(log) == [];
    assert forall q :: q in Downloads(log) <==> q == path && path !in files;
    assert forall q :: q in Targets(log) <==> q == target;
  }

  /** Whether a store unpacks: extraction is "true", the file opens as a
      zip archive and the target is not the archive itself (extracting into
      an existing file raises `NotADirectoryError`). */
  predicate Unpacks(server: Server, extract: string, path: string, target: string) {
    extract == "true" && server.isZip(path) && target != path
  }

  /** The exception a store of a present archive ends with. */
  function UnpackFailure(server: Server, extract: string, path: string): Option<Error> {
    if extract != "true" then None
    else if !server.isZip(path) then Some(BadZipFile)
    else Some(NotADirectory)
  }

  /** The exception that stops the download of an absent archive before
      anything is written: the transfer answers with an error status
      (`raise_for_status`), or the file cannot be created because its
      directory does not exist (`open` raises `FileNotFoundError`). */
  function TransferFailure(server: Server, files: set<string>, href: Value, path: string): Option<Error> {
    if path in files then None
    else if !server.transferOk(href) then Some(HttpError)
    else if !server.canWrite(path) then Some(FileNotFound)
    else None
  }

  /** Download-or-skip, then extract, for an archive whose download link,
      local path and extraction target are known. A failed transfer, or a
      file that cannot be created, raises before anything is written or
      reported. */
  function Store(server: Server, extract: string, files: set<string>,
                 href: Value, path: string, target: string): (r: Run)
    ensures OnlyAdds(files, r)
    ensures |Downloads(r.log)| <= 1
    ensures Progress(r.log) == []
    ensures path !in files && !server.transferOk(href) ==> r == Run(files, [], Some(HttpError))
    ensures path !in files && server.transferOk(href) && !server.canWrite(path) ==>
      r == Run(files, [], Some(FileNotFound))
  {
    if TransferFailure(server, files, href, path).Some? then
      Run(files, [], TransferFailure(server, files, href, path))
    else if !Unpacks(server, extract, path, target) then
      var failure := UnpackFailure(server, extract, path);
      StepAdds(files, path, failure);
      Run(files + {path}, [Step(files, path)], failure)
    else
      StepThenExtractAdds(files, path, target);
      StepAdds(files, path, None);
      Run(files + {path} + {target}, [Step(files, path), Extracted(path, target)], None)
  }

  /** A product was stored in `files`: its lookup succeeds with a text
      archive name, the archive is present under the download directory and,
      when extraction is "true", so is its target directory. */
  predicate Stored(server: Server, dir: string, extract: string, product: string, files: set<string>) {
    var info := ProductInfo(server.search(product));
    && info.Success? && info.value.resourceId.Str?
    && Paths.Join(dir, info.value.resourceId.text) in files
    && (extract == "true" ==> Paths.ExtractTarget(dir, info.value.resourceId.text) in files)
  }

  /** One product: look it up, download it into the download directory
      under its archive name unless that file is already present, then
      unpack it when asked. A failed lookup raises its exception and a
      non-text archive name raises TypeError, both before any file is
      touched; so does a failed transfer of an absent archive. */
  function Fetch(server: Server, dir: string, extract: string, files: set<string>, product: string): (r: Run)
    ensures OnlyAdds(files, r)
    ensures |Downloads(r.log)| <= 1
    ensures Progress(r.log) == []
    ensures r.failure.None? ==> Stored(server, dir, extract, product, r.files)
    ensures ProductInfo(server.search(product)).Failure? ==>
      r == Run(files, [], Some(ProductInfo(server.search(product)).error))
    ensures var info := ProductInfo(server.search(product));
      info.Success? && info.value.resourceId.NonString? ==> r == Run(files, [], Some(TypeError))
    ensures var info := ProductInfo(server.search(product));
      info.Success? && info.value.resourceId.Str?
      && Paths.Join(dir, info.value.resourceId.text) !in files && !server.transferOk(info.value.href) ==>
        r == Run(files, [], Some(HttpError))
    ensures var info := ProductInfo(server.search(product));
      info.Success? && info.value.resourceId.Str?
      && Paths.Join(dir, info.value.resourceId.text) !in files && server.transferOk(info.value.href)
      && !server.canWrite(Paths.Join(dir, info.value.resourceId.text)) ==>
        r == Run(files, [], Some(FileNotFound))
  {
    var looked := ProductInfo(server.search(product));
    match looked
    case Failure(e) => Run(files, [], Some(e))
    case Success(info) =>
      match info.resourceId
      case NonString => Run(files, [], Some(TypeError))
      case Str(name) =>
        var path := Paths.Join(dir, name);
        var target := Paths.ExtractTarget(dir, name);
        var r := Store(server, extract, files, info.href, path, target);
        if TransferFailure(server, files, info.href, path).None? then
          StoreShape(server, extract, files, info.href, path, target);
          assert r.failure.None? ==> path in r.files && (extract == "true" ==> target in r.files);
          assert r.failure.None? ==> Stored(server, dir, extract, product, r.files);
          r
        else
          r
  }

  /** The run a store produces when the archive is present or its transfer
      succeeds: one report for the archive, then the unpacking when it is
      asked for and possible. */
  lemma StoreShape(server: Server, extract: string, files: set<string>,
                   href: Value, path: string, target: string)
    requires TransferFailure(server, files, href, path).None?
    ensures var r := Store(server, extract, files, href, path, target);
      if Unpacks(server, extract, path, target) then
        r == Run(files + {path} + {target}, [Step(files, path), Extracted(path, target)], None)
      else
        r == Run(files + {path}, [Step(files, path)], UnpackFailure(server, extract, path))
  {
  }

  /** The reports of an allowed store, view by view. */
  lemma StoreViews(files: set<string>, path: string, target: string, unpack: bool)
    ensures var log := if unpack then [Step(files, path), Extracted(path, target)] else [Step(files, path)];
      && Downloads(log) == (if path in files then [] else [path])
      && Extractions(log) == (if unpack then [(path, target)] else [])
  {
    var step := Step(files, path);
    var x := Extracted(path, target);
    OneEvent(step);
    OneEvent(x);
    LogAppend([step], [x]);
    assert [step] + [x] == [step, x];
  }

  /** An absent archive is downloaded exactly when its transfer succeeds
      and its file can be created; a failed transfer raises `HTTPError` and
      an uncreatable file `FileNotFoundError`, and then nothing changes.
      Once the archive is present (downloaded or already there) it is
      unpacked into `target` exactly when extraction is "true", the file
      opens as a zip archive and the target is not the archive itself, and
      then the target directory is present too. A file that is not a zip
      raises `BadZipFile`; unpacking onto the archive itself raises
      `NotADirectoryError`. Nothing else changes. */
  lemma StoreBehaviour(server: Server, extract: string, files: set<string>,
                       href: Value, path: string, target: string)
    ensures var r := Store(server, extract, files, href, path, target);
      var downloads := path !in files && server.transferOk(href) && server.canWrite(path);
      var present := path in files || downloads;
      var unpack := present && extract == "true" && server.isZip(path) && target != path;
      && (Downloads(r.log) == [path] <==> downloads)
      && (Downloads(r.log) == [] <==> !downloads)
      && r.files == (if present then files + {path} else files) + (if unpack then {target} else {})
      && (Extractions(r.log) == [(path, target)] <==> unpack)
      && (Extractions(r.log) == [] <==> !unpack)
      && (r.failure == Some(HttpError) <==> (path !in files && !server.transferOk(href)))
      && (r.failure == Some(FileNotFound) <==>
            (path !in files && server.transferOk(href) && !server.canWrite(path)))
      && (r.failure.None? <==> present && (extract != "true" || unpack))
      && (r.failure == Some(BadZipFile) <==> present && extract == "true" && !server.isZip(path))
      && (r.failure == Some(NotADirectory) <==>
            present && extract == "true" && server.isZip(path) && target == path)
  {
    if TransferFailure(server, files, href, path).None? {
      var unpack := Unpacks(server, extract, path, target);
      StoreShape(server, extract, files, href, path, target);
      StoreViews(files, path, target, unpack);
    } else {
      assert Downloads([]) == [] && Extractions([]) == [];
    }
  }

  /** Storing the same archive again, on the files the first attempt left,
      downloads nothing, leaves the files as they are and ends the same way. */
  lemma StoreTwice(server: Server, extract: string, files: set<string>,
                   href: Value, path: string, target: string)
    ensures var first := Store(server, extract, files, href, path, target);
      var second := Store(server, extract, first.files, href, path, target);
      Downloads(second.log) == [] && second.files == first.files && second.failure == first.failure
  {
    var first := Store(server, extract, files, href, path, target);
    var unpack := Unpacks(server, extract, path, target);
    if TransferFailure(server, files, href, path).None? {
      StoreShape(server, extract, files, href, path, target);
      StoreShape(server, extract, first.files, href, path, target);
      StoreViews(first.files, path, target, unpack);
    }
  }

  /** Storing an archive that was stored without error, after more files
      appeared, downloads nothing and again ends without error. */
  lemma StoreAgainAfterMore(server: Server, extract: string, files: set<string>, more: set<string>,
                            href: Value, path: string, target: string)
    requires Store(server, extract, files, href, path, target).failure.None?
    requires Store(server, extract, files, href, path, target).files <= more
    ensures var again := Store(server, extract, more, href, path, target);
      Downloads(again.log) == [] && again.files == more && again.failure.None?
  {
    var first := Store(server, extract, files, href, path, target);
    var unpack := Unpacks(server, extract, path, target);
    assert TransferFailure(server, files, href, path).None?;
    StoreShape(server, extract, files, href, path, target);
    StoreShape(server, extract, more, href, path, target);
    StoreViews(more, path, target, unpack);
  }

  /** The existence test does not tell an archive from a directory: once an
      archive has been unpacked, an archive whose path is that target
      directory is never downloaded. */
  lemma UnpackedDirectoryCountsAsPresent(server: Server, files: set<string>, href: Value,
                                         path: string, target: string,
                                         extract': string, href': Value, target': string)
    requires Extractions(Store(server, "true", files, href, path, target).log) != []
    ensures var first := Store(server, "true", files, href, path, target);
      var second := Store(server, extract', first.files, href', target, target');
      Downloads(second.log) == [] && second.failure != Some(HttpError)
  {
    var first := Store(server, "true", files, href, path, target);
    StoreBehaviour(server, "true", files, href, path, target);
    assert target in first.files;
    StoreShape(server, extract', first.files, href', target, target');
    StoreViews(first.files, target, target', Unpacks(server, extract', target, target'));
  }

  /** A product whose lookup succeeds with a text archive name is stored
      under the download directory joined with that name: downloaded
      exactly when absent, its transfer succeeds and its file can be
      created, and otherwise raising before anything changes. Once present
      it is unpacked, when asked, into the directory named after the archive
      less its extension. A name without extension would be unpacked onto
      the archive itself, which raises. */
  lemma FetchBehaviour(server: Server, dir: string, extract: string, files: set<string>, product: string)
    requires ProductInfo(server.search(product)).Success?
    requires ProductInfo(server.search(product)).value.resourceId.Str?
    ensures var info := ProductInfo(server.search(product)).value;
      var name := info.resourceId.text;
      var path := Paths.Join(dir, name);
      var target := Paths.ExtractTarget(dir, name);
      var downloads := path !in files && server.transferOk(info.href) && server.canWrite(path);
      var present := path in files || downloads;
      var unpack := present && extract == "true" && server.isZip(path) && Paths.SplitExt(name).1 != [];
      var r := Fetch(server, dir, extract, files, product);
      && (Downloads(r.log) == [path] <==> downloads)
      && (Downloads(r.log) == [] <==> !downloads)
      && r.files == (if present then files + {path} else files) + (if unpack then {target} else {})
      && (Extractions(r.log) == [(path, target)] <==> unpack)
      && (Extractions(r.log) == [] <==> !unpack)
      && (r.failure == Some(HttpError) <==> (path !in files && !server.transferOk(info.href)))
      && (r.failure == Some(FileNotFound) <==>
            (path !in files && server.transferOk(info.href) && !server.canWrite(path)))
      && (r.failure.None? <==> present && (extract != "true" || unpack))
      && (r.failure == Some(BadZipFile) <==> present && extract == "true" && !server.isZip(path))
      && (r.failure == Some(NotADirectory) <==>
            present && extract == "true" && server.isZip(path) && Paths.SplitExt(name).1 == [])
  {
    var info := ProductInfo(server.search(product)).value;
    var name := info.resourceId.text;
    Paths.ExtractTargetIsArchiveIff(dir, name);
    StoreBehaviour(server, extract, files, info.href, Paths.Join(dir, name), Paths.ExtractTarget(dir, name));
  }

  /** Fetching a product a second time, on the files the first fetch left,
      downloads nothing, leaves the files as they are and ends the same way. */
  lemma FetchTwice(server: Server, dir: string, extract: string, files: set<string>, product: string)
    ensures var first := Fetch(server, dir, extract, files, product);
      var second := Fetch(server, dir, extract, first.files, product);
      Downloads(second.log) == [] && second.files == first.files && second.failure == first.failure
  {
    match ProductInfo(server.search(product))
    case Failure(e) =>
    case Success(info) =>
      match info.resourceId
      case NonString =>
      case Str(name) =>
        StoreTwice(server, extract, files, info.href, Paths.Join(dir, name), Paths.ExtractTarget(dir, name));
  }

  /** Fetching, after files were added, a product that was fetched without
      error downloads nothing and again ends without error. */
  lemma FetchAgainAfterMore(server: Server, dir: string, extract: string, files: set<string>, more: set<string>, product: string)
    requires Fetch(server, dir, extract, files, product).failure.None?
    requires Fetch(server, dir, extract, files, product).files <= more
    ensures var again := Fetch(server, dir, extract, more, product);
      Downloads(again.log) == [] && again.files == more && again.failure.None?
  {
    match ProductInfo(server.search(product))
    case Failure(e) =>
    case Success(info) =>
      match info.resourceId
      case NonString =>
      case Str(name) =>
        StoreAgainAfterMore(server, extract, files, more, info.href,
                            Paths.Join(dir, name), Paths.ExtractTarget(dir, name));
  }

  /** Reporting "i of n" before a single fetch keeps what the fetch adds and
      makes that report the only progress. */
  lemma HandlingThen(files: set<string>, step: Run, i: nat, n: nat)
    requires OnlyAdds(files, step) && Progress(step.log) == []
    ensures OnlyAdds(files, Run(step.files, [Handling(i, n)] + step.log, step.failure))
    ensures Progress([Handling(i, n)] + step.log) == [(i, n)]
  {
    LogAppend([Handling(i, n)], step.log);
    OneEvent(Handling(i, n));
  }

  /** Two runs in sequence: the files the second starts from are those the
      first left, so together they still only add what they download, and
      their progress reports follow each other. */
  lemma Sequence(files: set<string>, first: Run, second: Run, i: nat, n: nat)
    requires OnlyAdds(files, first) && OnlyAdds(first.files, second)
    requires Progress(first.log) == [(i, n)] && CountsFrom(Progress(second.log), i + 1, n)
    ensures OnlyAdds(files, Run(second.files, first.log + second.log, second.failure))
    ensures Progress(first.log + second.log) == [(i, n)] + Progress(second.log)
    ensures CountsFrom(Progress(first.log + second.log), i, n)
  {
    LogAppend(first.log, second.log);
  }

  /** A product stored before the rest, followed by stored products, gives
      a stored prefix of the whole list. */
  lemma StoredThenRest(server: Server, dir: string, extract: string, products: seq<string>,
                       files: set<string>, more: set<string>, m: nat)
    requires 0 < |products| && m < |products| && files <= more
    requires Stored(server, dir, extract, products[0], files)
    requires forall k :: 0 <= k < m ==> Stored(server, dir, extract, products[1..][k], more)
    ensures forall k :: 0 <= k <= m ==> Stored(server, dir, extract, products[k], more)
  {
    forall k | 0 <= k <= m
      ensures Stored(server, dir, extract, products[k], more)
    {
      if k > 0 {
        assert products[k] == products[1..][k - 1];
      }
    }
  }

  /** The files present when the all-products loop began the last product
      it handled: each earlier product's fetch succeeded and left the files
      the next one starts from. */
  function LastStart(server: Server, dir: string, extract: string, files: set<string>,
                     products: seq<string>): set<string>
    decreases |products|
  {
    if |products| <= 1 then files
    else
      var step := Fetch(server, dir, extract, files, products[0]);
      if step.failure.Some? then files
      else LastStart(server, dir, extract, step.files, products[1..])
  }

  /** The all-products loop: for the `i`-th of `n` products, report
      progress and fetch it. The first exception ends the loop; every
      product handled before it, and every product when none is raised, is
      stored. */
  function Batch(server: Server, dir: string, extract: string, files: set<string>,
                 products: seq<string>, i: nat, n: nat): (r: Run)
    ensures OnlyAdds(files, r)
    ensures |Progress(r.log)| <= |products|
    ensures CountsFrom(Progress(r.log), i, n)
    ensures r.failure.None? ==> |Progress(r.log)| == |products|
    ensures r.failure.Some? ==> |Progress(r.log)| >= 1
    ensures r.failure.None? ==>
      forall k :: 0 <= k < |products| ==> Stored(server, dir, extract, products[k], r.files)
    ensures r.failure.Some? ==>
      forall k :: 0 <= k < |Progress(r.log)| - 1 ==> Stored(server, dir, extract, products[k], r.files)
    decreases |products|
  {
    if |products| == 0 then Run(files, [], None)
    else
      var step := Fetch(server, dir, extract, files, products[0]);
      var head := [Handling(i, n)] + step.log;
      HandlingThen(files, step, i, n);
      if step.failure.Some? then
        Run(step.files, head, step.failure)
      else
        var rest := Batch(server, dir, extract, step.files, products[1..], i + 1, n);
        Sequence(files, Run(step.files, head, None), rest, i, n);
        var stored := if rest.failure.None? then |products| - 1 else |Progress(rest.log)| - 1;
        StoredThenRest(server, dir, extract, products, step.files, rest.files, stored);
        Run(rest.files, head + rest.log, rest.failure)
  }

  /** Running the loop again over the files the first run left downloads
      nothing and leaves the files unchanged. */
  lemma {:induction false} BatchTwice(server: Server, dir: string, extract: string, files: set<string>,
                                      products: seq<string>, i: nat, n: nat)
    ensures var first := Batch(server, dir, extract, files, products, i, n);
      var second := Batch(server, dir, extract, first.files, products, i, n);
      Downloads(second.log) == [] && second.files == first.files
    decreases |products|
  {
    var first := Batch(server, dir, extract, files, products, i, n);
    var second := Batch(server, dir, extract, first.files, products, i, n);
    if |products| > 0 {
      var step := Fetch(server, dir, extract, files, products[0]);
      var again := Fetch(server, dir, extract, first.files, products[0]);
      LogAppend([Handling(i, n)], again.log);
      assert Downloads([Handling(i, n)]) == [];
      if step.failure.Some? {
        FetchTwice(server, dir, extract, files, products[0]);
      } else {
        var rest := Batch(server, dir, extract, step.files, products[1..], i + 1, n);
        FetchAgainAfterMore(server, dir, extract, files, first.files, products[0]);
        BatchTwice(server, dir, extract, step.files, products[1..], i + 1, n);
        var head := [Handling(i, n)] + again.log;
        LogAppend(head, Batch(server, dir, extract, again.files, products[1..], i + 1, n).log);
      }
    }
  }

  /** Without extraction, storing an archive that is already present only
      skips it. */
  lemma StoreOfPresent(server: Server, extract: string, files: set<string>,
                       href: Value, path: string, target: string)
    requires extract != "true" && path in files
    ensures Store(server, extract, files, href, path, target) == Run(files, [Skipped(path)], None)
  {
    assert files + {path} == files;
  }

  /** Without extraction, fetching a stored product only skips its
      archive: nothing changes and nothing is raised. */
  lemma FetchOfStored(server: Server, dir: string, extract: string, files: set<string>, product: string)
    requires extract != "true"
    requires Stored(server, dir, extract, product, files)
    ensures var r := Fetch(server, dir, extract, files, product);
      r.failure.None? && r.files == files && Downloads(r.log) == []
  {
    var info := ProductInfo(server.search(product)).value;
    var name := info.resourceId.text;
    var path := Paths.Join(dir, name);
    StoreOfPresent(server, extract, files, info.href, path, Paths.ExtractTarget(dir, name));
    assert Fetch(server, dir, extract, files, product) == Run(files, [Skipped(path)], None);
    OneEvent(Skipped(path));
  }

  /** A loop whose first fetch raises ends with that fetch's files and
      exception after reporting one product. */
  lemma BatchFailsFirst(server: Server, dir: string, extract: string, files: set<string>,
                        products: seq<string>, i: nat, n: nat)
    requires |products| > 0
    requires Fetch(server, dir, extract, files, products[0]).failure.Some?
    ensures var r := Batch(server, dir, extract, files, products, i, n);
      var step := Fetch(server, dir, extract, files, products[0]);
      r.files == step.files && r.failure == step.failure && |Progress(r.log)| == 1
    ensures LastStart(server, dir, extract, files, products) == files
  {
    hide Fetch, Progress, Downloads, Stored, CountsFrom, ProductInfo;
    var step := Fetch(server, dir, extract, files, products[0]);
    assert Batch(server, dir, extract, files, products, i, n)
        == Run(step.files, [Handling(i, n)] + step.log, step.failure);
    HandlingThen(files, step, i, n);
  }

  /** A loop whose first fetch succeeds ends as the loop over the remaining
      products, started from that fetch's files, with one more report. */
  lemma BatchGoesOn(server: Server, dir: string, extract: string, files: set<string>,
                    products: seq<string>, i: nat, n: nat)
    requires |products| > 0
    requires Fetch(server, dir, extract, files, products[0]).failure.None?
    ensures var r := Batch(server, dir, extract, files, products, i, n);
      var step := Fetch(server, dir, extract, files, products[0]);
      var rest := Batch(server, dir, extract, step.files, products[1..], i + 1, n);
      && r.files == rest.files && r.failure == rest.failure
      && |Progress(r.log)| == |Progress(rest.log)| + 1
      && files <= step.files
      && (|products| > 1 ==>
            LastStart(server, dir, extract, files, products)
            == LastStart(server, dir, extract, step.files, products[1..]))
  {
    hide Fetch, Progress, Downloads, Stored, CountsFrom, ProductInfo;
    var step := Fetch(server, dir, extract, files, products[0]);
    var rest := Batch(server, dir, extract, step.files, products[1..], i + 1, n);
    var head := [Handling(i, n)] + step.log;
    assert Batch(server, dir, extract, files, products, i, n) == Run(rest.files, head + rest.log, rest.failure);
    HandlingThen(files, step, i, n);
    LogAppend(head, rest.log);
  }

  /** When the loop raises, the exception is the one the fetch of the last
      product it reported raised, starting from the files the earlier
      products left; that fetch also left exactly the run's files. */
  lemma {:induction false} BatchFailsInFetch(server: Server, dir: string, extract: string, files: set<string>,
                                             products: seq<string>, i: nat, n: nat)
    ensures var r := Batch(server, dir, extract, files, products, i, n);
      r.failure.Some? ==>
        var before := LastStart(server, dir, extract, files, products);
        var last := Fetch(server, dir, extract, before, products[|Progress(r.log)| - 1]);
        files <= before && last.files == r.files && last.failure == r.failure
    decreases |products|
  {
    hide Batch, Fetch, LastStart, Progress, Downloads, Stored, CountsFrom, OnlyAdds, ProductInfo;
    var r := Batch(server, dir, extract, files, products, i, n);
    if |products| > 0 && r.failure.Some? {
      var step := Fetch(server, dir, extract, files, products[0]);
      if step.failure.Some? {
        BatchFailsFirst(server, dir, extract, files, products, i, n);
      } else {
        var rest := Batch(server, dir, extract, step.files, products[1..], i + 1, n);
        BatchGoesOn(server, dir, extract, files, products, i, n);
        BatchFailsInFetch(server, dir, extract, step.files, products[1..], i + 1, n);
        assert products[1..][|Progress(rest.log)| - 1] == products[|Progress(r.log)| - 1];
      }
    }
  }


  /** When extraction is not asked for and every product is already
      stored, the loop skips every download and raises nothing. */
  lemma {:induction false} BatchOfStoredSucceeds(server: Server, dir: string, extract: string, files: set<string>,
                                                 products: seq<string>, i: nat, n: nat)
    requires extract != "true"
    requires forall k :: 0 <= k < |products| ==> Stored(server, dir, extract, products[k], files)
    ensures var r := Batch(server, dir, extract, files, products, i, n);
      r.failure.None? && r.files == files && Downloads(r.log) == []
    decreases |products|
  {
    if |products| > 0 {
      FetchOfStored(server, dir, extract, files, products[0]);
      var step := Fetch(server, dir, extract, files, products[0]);
      forall k | 0 <= k < |products| - 1
        ensures Stored(server, dir, extract, products[1..][k], files)
      {
        assert products[1..][k] == products[k + 1];
      }
      BatchOfStoredSucceeds(server, dir, extract, files, products[1..], i + 1, n);
      var rest := Batch(server, dir, extract, files, products[1..], i + 1, n);
      var head := [Handling(i, n)] + step.log;
      assert Batch(server, dir, extract, files, products, i, n) == Run(rest.files, head + rest.log, None);
      OneEvent(Handling(i, n));
      LogAppend([Handling(i, n)], step.log);
      LogAppend(head, rest.log);
    }
  }

  /** Single-product mode is chosen when the all-products parameter is
      "false" or empty. */
  predicate SingleProduct(p: Parameters) {
    p.allProducts == "false" || p.allProducts == ""
  }

  /** The tool run. Single-product mode takes the id after the first `=` of
      the selection (IndexError without one). All-products mode lists the
      workspace and hands each whole `id,href,resourceId` line to the
      product lookup as the id. */
  function Main(p: Parameters, server: Server, files: set<string>): (r: Run)
    ensures OnlyAdds(files, r)
    ensures SingleProduct(p) ==> Progress(r.log) == [] && |Downloads(r.log)| <= 1
    ensures SingleProduct(p) && Text.AfterFirst(p.selectedProduct, '=').None? ==>
      r == Run(files, [], Some(IndexError))
    ensures SingleProduct(p) && Text.AfterFirst(p.selectedProduct, '=').Some? ==>
      |r.log| > 0 && r.log[0] == Selected(Text.AfterFirst(p.selectedProduct, '=').value)
    ensures SingleProduct(p) && Text.AfterFirst(p.selectedProduct, '=').Some? && r.failure.None? ==>
      Stored(server, p.downloadDir, p.extract, Text.AfterFirst(p.selectedProduct, '=').value, r.files)
    ensures SingleProduct(p) && Text.AfterFirst(p.selectedProduct, '=').Some? ==>
      var step := Fetch(server, p.downloadDir, p.extract, files, Text.AfterFirst(p.selectedProduct, '=').value);
      r.files == step.files && r.failure == step.failure
    ensures !SingleProduct(p) && ProductLines(server.workspace).Failure? ==>
      r == Run(files, [], Some(ProductLines(server.workspace).error))
    ensures !SingleProduct(p) && ProductLines(server.workspace).Success? ==>
      var n := |ProductLines(server.workspace).value|;
      && |Progress(r.log)| <= n
      && CountsFrom(Progress(r.log), 1, n)
      && (r.failure.None? ==> |Progress(r.log)| == n)
      && (r.failure.None? ==> forall k :: 0 <= k < n ==>
            Stored(server, p.downloadDir, p.extract, ProductLines(server.workspace).value[k], r.files))
      && (r.failure.Some? ==> forall k :: 0 <= k < |Progress(r.log)| - 1 ==>
            Stored(server, p.downloadDir, p.extract, ProductLines(server.workspace).value[k], r.files))
      && (r.failure.Some? ==> |Progress(r.log)| >= 1)
  {
    if SingleProduct(p) then
      match Text.AfterFirst(p.selectedProduct, '=')
      case None => Run(files, [], Some(IndexError))
      case Some(id) =>
        var step := Fetch(server, p.downloadDir, p.extract, files, id);
        LogAppend([Selected(id)], step.log);
        Run(step.files, [Selected(id)] + step.log, step.failure)
    else
      match ProductLines(server.workspace)
      case Failure(e) => Run(files, [], Some(e))
      case Success(products) =>
        Batch(server, p.downloadDir, p.extract, files, products, 1, |products|)
  }

  /** Running the tool a second time with the same parameters, on the files
      the first run left, downloads nothing and changes no file. */
  lemma RunTwice(p: Parameters, server: Server, files: set<string>)
    ensures var first := Main(p, server, files);
      var second := Main(p, server, first.files);
      Downloads(second.log) == [] && second.files == first.files
  {
    var first := Main(p, server, files);
    if SingleProduct(p) {
      match Text.AfterFirst(p.selectedProduct, '=')
      case None =>
      case Some(id) =>
        FetchTwice(server, p.downloadDir, p.extract, files, id);
        var again := Fetch(server, p.downloadDir, p.extract, first.files, id);
        LogAppend([Selected(id)], again.log);
    } else {
      match ProductLines(server.workspace)
      case Failure(e) =>
      case Success(products) =>
        BatchTwice(server, p.downloadDir, p.extract, files, products, 1, |products|);
    }
  }

  /** In all-products mode the run is the loop over the listed products. */
  lemma MainRunsBatch(p: Parameters, server: Server, files: set<string>)
    requires !SingleProduct(p) && ProductLines(server.workspace).Success?
    ensures var products := ProductLines(server.workspace).value;
      Main(p, server, files) == Batch(server, p.downloadDir, p.extract, files, products, 1, |products|)
  {
  }

  /** In all-products mode, a run that raises after reporting products
      raises what the fetch of the last reported product raised. */
  lemma MainFailsInFetch(p: Parameters, server: Server, files: set<string>)
    requires !SingleProduct(p) && ProductLines(server.workspace).Success?
    ensures var r := Main(p, server, files);
      r.failure.Some? ==>
        var products := ProductLines(server.workspace).value;
        var before := LastStart(server, p.downloadDir, p.extract, files, products);
        var last := Fetch(server, p.downloadDir, p.extract, before, products[|Progress(r.log)| - 1]);
        files <= before && last.files == r.files && last.failure == r.failure
  {
    hide Main, Batch, Fetch, LastStart, Progress, Downloads, Stored, CountsFrom, OnlyAdds, ProductLines, ProductInfo;
    var products := ProductLines(server.workspace).value;
    var r := Batch(server, p.downloadDir, p.extract, files, products, 1, |products|);
    MainRunsBatch(p, server, files);
    BatchFailsInFetch(server, p.downloadDir, p.extract, files, products, 1, |products|);
    if r.failure.Some? {
      var before := LastStart(server, p.downloadDir, p.extract, files, products);
      var last := Fetch(server, p.downloadDir, p.extract, before, products[|Progress(r.log)| - 1]);
      assert files <= before && last.files == r.files && last.failure == r.failure;
    }
  }

  /** A tool run without extraction whose products are all stored already
      downloads nothing, changes no file and raises nothing. */
  lemma StoredRunSucceeds(p: Parameters, server: Server, files: set<string>)
    requires p.extract != "true"
    requires SingleProduct(p) ==>
      && Text.AfterFirst(p.selectedProduct, '=').Some?
      && Stored(server, p.downloadDir, p.extract, Text.AfterFirst(p.selectedProduct, '=').value, files)
    requires !SingleProduct(p) ==>
      && ProductLines(server.workspace).Success?
      && forall k :: 0 <= k < |ProductLines(server.workspace).value| ==>
           Stored(server, p.downloadDir, p.extract, ProductLines(server.workspace).value[k], files)
    ensures var r := Main(p, server, files);
      r.failure.None? && r.files == files && Downloads(r.log) == []
  {
    hide Fetch, Batch, Progress, Downloads, Stored, CountsFrom, ProductInfo;
    if SingleProduct(p) {
      var id := Text.AfterFirst(p.selectedProduct, '=').value;
      FetchOfStored(server, p.downloadDir, p.extract, files, id);
      var step := Fetch(server, p.downloadDir, p.extract, files, id);
      OneEvent(Selected(id));
      LogAppend([Selected(id)], step.log);
    } else {
      var products := ProductLines(server.workspace).value;
      BatchOfStoredSucceeds(server, p.downloadDir, p.extract, files, products, 1, |products|);
    }
  }

  /** The lookup in all-products mode is keyed by the whole listing line:
      when the search knows no product by such a key, the run stops at the
      first product, having reported "1 of N" and downloaded nothing. */
  lemma AllProductsStopsOnUnknownLine(p: Parameters, server: Server, files: set<string>)
    requires !SingleProduct(p)
    requires ProductLines(server.workspace).Success?
    requires |ProductLines(server.workspace).value| > 0
    requires server.search(ProductLines(server.workspace).value[0]) == []
    ensures var n := |ProductLines(server.workspace).value|;
      Main(p, server, files) == Run(files, [Handling(1, n)], Some(UnboundLocalError("product_href")))
  {
  }
}

=== FILE: features.dfy ===
/** Catalogue feature records as the search endpoint returns them, the Python
    exceptions that reading them can raise, and the two single-product
    lookups (`get_product_info`, `get_product_geometry`), which both keep
    the LAST feature of the response. */
module Features {
  import opened Wrappers

  /** A value inside a feature record. Only strings can be concatenated or
      used as a file name; every other JSON value (number, null, object, ...)
      is `NonString`. */
  datatype Value = Str(text: string) | NonString

  /** A JSON object of scalar values. */
  type Fields = map<string, Value>

  /** The `_links` object of a feature; `download` is its list of download
      link objects, absent when the key is missing. */
  datatype Links = Links(download: Option<seq<Fields>>)

  /** One GeoJSON feature: the `properties` object, the `_links` object and
      the serialised `geometry`, each absent when its key is missing. */
  datatype Feature = Feature(properties: Option<Fields>, links: Option<Links>, geometry: Option<string>)

  /** The Python exceptions the scripts can raise. */
  datatype Error =
    | KeyError(key: string)
    | IndexError
    | TypeError
    | AttributeError
    | UnboundLocalError(name: string)
    | HttpError
    | BadZipFile
    | NotADirectory
    | FileNotFound

  /** `obj[key]`. */
  function Field(obj: Fields, key: string): (r: Result<Value, Error>)
    ensures r.Success? <==> key in obj
    ensures r.Success? ==> r.value == obj[key]
    ensures r.Failure? ==> r.error == KeyError(key)
  {
    if key in obj then Success(obj[key]) else Failure(KeyError(key))
  }

  /** A value used where Python needs a string; anything else raises
      TypeError. */
  function AsText(v: Value): (r: Result<string, Error>)
    ensures r.Success? <==> v.Str?
    ensures r.Success? ==> r.value == v.text
    ensures r.Failure? ==> r.error == TypeError
  {
    match v
    case Str(s) => Success(s)
    case NonString => Failure(TypeError)
  }

  /** `feature["properties"][key]`. */
  function Property(f: Feature, key: string): (r: Result<Value, Error>)
    ensures r.Success? <==> f.properties.Some? && key in f.properties.value
    ensures r.Success? ==> r.value == f.properties.value[key]
  {
    match f.properties
    case None => Failure(KeyError("properties"))
    case Some(props) => Field(props, key)
  }

  /** `feature["_links"]["download"][1]`: the second download link object. */
  function DownloadEntry(f: Feature): (r: Result<Fields, Error>)
    ensures r.Success? <==>
      f.links.Some? && f.links.value.download.Some? && |f.links.value.download.value| >= 2
    ensures r.Success? ==> r.value == f.links.value.download.value[1]
    ensures f.links.Some? && f.links.value.download.Some? && |f.links.value.download.value| < 2
      ==> r == Failure(IndexError)
  {
    match f.links
    case None => Failure(KeyError("_links"))
    case Some(links) =>
      match links.download
      case None => Failure(KeyError("download"))
      case Some(entries) =>
        if |entries| < 2 then Failure(IndexError) else Success(entries[1])
  }

  /** The value of a Python loop variable after `for x in xs: v = read(x)`:
      `read` is applied to every element in order, the first exception
      escapes, and `v` is the value read from the last element. With no
      elements `v` is never bound and reading it raises UnboundLocalError. */
  function PickLast<T>(xs: seq<Feature>, read: Feature -> Result<T, Error>, name: string): (r: Result<T, Error>)
    ensures r.Success? <==> |xs| > 0 && forall i :: 0 <= i < |xs| ==> read(xs[i]).Success?
    ensures r.Success? ==> r.value == read(xs[|xs| - 1]).value
    ensures |xs| == 0 ==> r == Failure(UnboundLocalError(name))
    ensures |xs| > 0 && r.Failure? ==>
      exists i :: 0 <= i < |xs| && read(xs[i]) == Failure(r.error)
                  && forall j :: 0 <= j < i ==> read(xs[j]).Success?
    decreases |xs|
  {
    if |xs| == 0 then Failure(UnboundLocalError(name))
    else
      match read(xs[0])
      case Failure(e) => Failure(e)
      case Success(v) =>
        if |xs| == 1 then Success(v)
        else
          var r := PickLast(xs[1..], read, name);
          assert forall i :: 1 <= i < |xs| ==> xs[i] == xs[1..][i - 1];
          if r.Failure? then
            var i :| 0 <= i < |xs[1..]| && read(xs[1..][i]) == Failure(r.error)
                     && forall j :: 0 <= j < i ==> read(xs[1..][j]).Success?;
            assert read(xs[i + 1]) == Failure(r.error);
            r
          else
            r
  }

  /** Where one product can be downloaded from: its link and its archive
      name, exactly as the catalogue gives them. */
  datatype DownloadInfo = DownloadInfo(href: Value, resourceId: Value)

  /** The body of the loop in `get_product_info`: read `href`, then
      `resourceId`, from the second download link object. */
  function ReadDownloadInfo(f: Feature): (r: Result<DownloadInfo, Error>)
    ensures r.Success? <==> (DownloadEntry(f).Success?
                             && "href" in DownloadEntry(f).value
                             && "resourceId" in DownloadEntry(f).value)
    ensures r.Success? ==>
      r.value.href == DownloadEntry(f).value["href"]
      && r.value.resourceId == DownloadEntry(f).value["resourceId"]
  {
    var entry :- DownloadEntry(f);
    var href :- Field(entry, "href");
    var resourceId :- Field(entry, "resourceId");
    Success(DownloadInfo(href, resourceId))
  }

  /** `get_product_info`: the download link and archive name of the last
      feature of a product search. Every feature is read, so any malformed
      one raises; an empty response leaves the result unbound. */
  function ProductInfo(response: seq<Feature>): (r: Result<DownloadInfo, Error>)
    ensures r.Success? <==> |response| > 0 && forall i :: 0 <= i < |response| ==> ReadDownloadInfo(response[i]).Success?
    ensures r.Success? ==> r.value == ReadDownloadInfo(response[|response| - 1]).value
    ensures |response| == 0 ==> r == Failure(UnboundLocalError("product_href"))
  {
    PickLast(response, ReadDownloadInfo, "product_href")
  }

  /** The body of the loop in `get_product_geometry`. */
  function ReadGeometry(f: Feature): (r: Result<string, Error>)
    ensures r.Success? <==> f.geometry.Some?
    ensures r.Success? ==> r.value == f.geometry.value
    ensures r.Failure? ==> r.error == KeyError("geometry")
  {
    match f.geometry
    case None => Failure(KeyError("geometry"))
    case Some(g) => Success(g)
  }

  /** `get_product_geometry`: the serialised geometry of the last feature of
      a product search. */
  function ProductGeometry(response: seq<Feature>): (r: Result<string, Error>)
    ensures r.Success? <==> |response| > 0 && forall i :: 0 <= i < |response| ==> response[i].geometry.Some?
    ensures r.Success? ==> Some(r.value) == response[|response| - 1].geometry
    ensures |response| == 0 ==> r == Failure(UnboundLocalError("geometry"))
  {
    PickLast(response, ReadGeometry, "geometry")
  }
}

=== FILE: paths.dfy ===
/** The two `os.path` operations the downloader uses, with the POSIX
    (`posixpath`) rules: `join` of two components and `splitext`. */
module Paths {

  /** The position of the last `c` in `s`, or -1 (Python `str.rfind`). */
  function LastIndex(s: string, c: char): (r: int)
    ensures -1 <= r < |s|
    ensures r >= 0 ==> s[r] == c
    ensures forall k :: r < k < |s| ==> s[k] != c
    decreases |s|
  {
    if |s| == 0 then -1
    else if s[|s| - 1] == c then |s| - 1
    else LastIndex(s[..|s| - 1], c)
  }

  /** `os.path.join(a, b)`: an absolute `b` replaces `a`; otherwise `b` is
      appended after a separator unless `a` is empty or already ends in one. */
  function Join(a: string, b: string): (r: string)
    ensures |b| > 0 && b[0] == '/' ==> r == b
    ensures |b| <= |r| && r[|r| - |b|..] == b
    ensures !(|b| > 0 && b[0] == '/') ==>
      |a| <= |r| - |b| <= |a| + 1 && r[..|a|] == a && (|r| - |b| == |a| + 1 ==> r[|a|] == '/')
    ensures !(|b| > 0 && b[0] == '/') ==>
      (|r| == |a| + 1 + |b| <==> |a| > 0 && a[|a| - 1] != '/')
  {
    if |b| > 0 && b[0] == '/' then b
    else if |a| == 0 || a[|a| - 1] == '/' then a + b
    else a + ['/'] + b
  }

  /** The final path component, as `os.path.basename` computes it. */
  function BaseName(p: string): (r: string)
    ensures '/' !in r
    ensures |r| <= |p| && r == p[|p| - |r|..]
  {
    p[LastIndex(p, '/') + 1..]
  }

  /** A name without separators is the final component of any path it is
      joined onto. */
  lemma JoinBaseName(a: string, b: string)
    requires '/' !in b
    ensures BaseName(Join(a, b)) == b
  {
    if |b| > 0 {
      assert b[0] != '/';
    }
  }

  /** The extension rule of `splitext`, stated without reference to the
      algorithm: some character other than `.` is later followed by a `.`,
      and no `/` comes after that character. */
  ghost predicate HasExtension(p: string) {
    exists j, i :: 0 <= j < i < |p| && p[j] != '.' && p[i] == '.' && '/' !in p[j..]
  }

  /** Some character of `p[lo..hi]` is not a `.`. */
  predicate NonDotBetween(p: string, lo: int, hi: int)
    requires 0 <= lo && hi <= |p|
  {
    exists j :: lo <= j < hi && p[j] != '.'
  }

  /** Where `splitext` cuts `p`: at the last `.` when it lies in the final
      component and some character other than `.` comes before it there;
      otherwise at the end. */
  function ExtensionStart(p: string): (d: nat)
    ensures d <= |p|
    ensures d < |p| ==> 0 < d && p[d] == '.' && '.' !in p[d + 1..] && '/' !in p[d..]
  {
    var sepIndex := LastIndex(p, '/');
    var dotIndex := LastIndex(p, '.');
    if dotIndex > sepIndex && NonDotBetween(p, sepIndex + 1, dotIndex) then
      assert forall k :: dotIndex < k < |p| ==> p[k] != '.' && p[k] != '/';
      dotIndex
    else |p|
  }

  /** `os.path.splitext(p)`: `(root, ext)` with `ext` empty or a `.`
      followed by no further `.` or `/`. */
  function SplitExt(p: string): (r: (string, string))
    ensures r.0 + r.1 == p
    ensures r.1 == [] || (r.1[0] == '.' && '.' !in r.1[1..] && '/' !in r.1)
    ensures p != [] ==> r.0 != [] && r.0[0] == p[0]
  {
    var d := ExtensionStart(p);
    assert p[..d] + p[d..] == p;
    (p[..d], p[d..])
  }

  /** `splitext` finds an extension exactly when `HasExtension` holds. */
  lemma SplitExtCharacterised(p: string)
    ensures SplitExt(p).1 != [] <==> HasExtension(p)
  {
    var sepIndex := LastIndex(p, '/');
    var dotIndex := LastIndex(p, '.');
    if SplitExt(p).1 != [] {
      assert NonDotBetween(p, sepIndex + 1, dotIndex);
      var j :| sepIndex + 1 <= j < dotIndex && p[j] != '.';
      assert '/' !in p[j..] by {
        forall k | j <= k < |p| ensures p[k] != '/' { }
      }
      assert 0 <= j < dotIndex < |p| && p[j] != '.' && p[dotIndex] == '.' && '/' !in p[j..];
    }
    if HasExtension(p) {
      var j, i :| 0 <= j < i < |p| && p[j] != '.' && p[i] == '.' && '/' !in p[j..];
      assert i <= dotIndex;
      assert sepIndex + 1 <= j < dotIndex && p[j] != '.';
      assert NonDotBetween(p, sepIndex + 1, dotIndex);
    }
  }

  /** The directory a downloaded archive is unpacked into: the download
      directory joined with `splitext(archive)[0]`. */
  function ExtractTarget(dir: string, archive: string): string {
    Join(dir, SplitExt(archive).0)
  }

  /** Joining a relative name and then appending to it is joining the
      longer name. */
  lemma JoinThenAppend(a: string, b: string, c: string)
    requires |b| > 0 && b[0] != '/'
    ensures Join(a, b) + c == Join(a, b + c)
  {
    assert (b + c)[0] == b[0];
    if |a| == 0 || a[|a| - 1] == '/' {
      assert (a + b) + c == a + (b + c);
    } else {
      assert (a + ['/'] + b) + c == a + ['/'] + (b + c);
    }
  }

  /** The target directory is the archive's own path less its extension. */
  lemma ExtractTargetIsArchiveLessExtension(dir: string, archive: string)
    ensures ExtractTarget(dir, archive) + SplitExt(archive).1 == Join(dir, archive)
  {
    var (root, ext) := SplitExt(archive);
    assert root + ext == archive;
    if archive == [] {
      assert root == [] && ext == [];
    } else if archive[0] == '/' {
      assert Join(dir, root) == root;
    } else {
      JoinThenAppend(dir, root, ext);
    }
  }

  /** An archive is unpacked onto its own path exactly when its name has no
      extension. */
  lemma ExtractTargetIsArchiveIff(dir: string, archive: string)
    ensures ExtractTarget(dir, archive) == Join(dir, archive) <==> SplitExt(archive).1 == []
  {
    ExtractTargetIsArchiveLessExtension(dir, archive);
    assert |ExtractTarget(dir, archive)| + |SplitExt(archive).1| == |Join(dir, archive)|;
  }
}

=== FILE: summary.dfy ===
/** The product listing of the tool dialog (`get_products_in_workspace` in
    the validation script): every catalogue feature is checked on its own,
    a malformed one is skipped, and each well-formed one becomes the summary
    line `date, level, type, resourceId, ID=id`. The dialog later reads the
    product id back as the text after the first `=` and the acquisition date
    as the text before the first `,`. */
module Summary {
  import opened Wrappers
  import opened Features
  import Text

  /** The five catalogue fields a summary line shows. */
  datatype ProductSummary = ProductSummary(
    acquisitionDate: string,
    processingLevel: string,
    productType: string,
    resourceId: string,
    id: string)

  /** `obj` holds a string under `key`. */
  predicate HasText(obj: Fields, key: string) {
    key in obj && obj[key].Str?
  }

  /** A feature the listing keeps: the four properties and the second
      download link's `resourceId` are all present, and all are strings. */
  predicate WellFormed(f: Feature) {
    && f.properties.Some?
    && HasText(f.properties.value, "acquisitionDate")
    && HasText(f.properties.value, "processingLevel")
    && HasText(f.properties.value, "productType")
    && HasText(f.properties.value, "id")
    && f.links.Some?
    && f.links.value.download.Some?
    && |f.links.value.download.value| >= 2
    && HasText(f.links.value.download.value[1], "resourceId")
  }

  /** One iteration of the listing loop. The `if` tests the property keys
      and the `resourceId` key; reaching a missing `_links` or `download`, a
      download list shorter than two, or concatenating a value that is not
      a string raises, and the `except` clause drops the feature. */
  function Summarise(f: Feature): (r: Option<ProductSummary>)
    ensures r.Some? <==> WellFormed(f)
    ensures r.Some? ==>
      var props := f.properties.value;
      && r.value.acquisitionDate == props["acquisitionDate"].text
      && r.value.processingLevel == props["processingLevel"].text
      && r.value.productType == props["productType"].text
      && r.value.id == props["id"].text
      && r.value.resourceId == f.links.value.download.value[1]["resourceId"].text
  {
    match f.properties
    case None => None
    case Some(props) =>
      if !("acquisitionDate" in props && "processingLevel" in props
           && "productType" in props && "id" in props) then None
      else
        match DownloadEntry(f)
        case Failure(_) => None
        case Success(entry) =>
          if "resourceId" !in entry then None
          else
            match (props["acquisitionDate"], props["processingLevel"], props["productType"],
                   entry["resourceId"], props["id"])
            case (Str(date), Str(level), Str(kind), Str(resource), Str(id)) =>
              Some(ProductSummary(date, level, kind, resource, id))
            case _ => None
  }

  /** The summary line shown in the product selector. */
  function Format(s: ProductSummary): string {
    s.acquisitionDate + ", " + s.processingLevel + ", " + s.productType + ", "
      + s.resourceId + ", ID=" + s.id
  }

  /** The line one feature contributes: none, or exactly one. */
  function LineOf(f: Feature): (r: seq<string>)
    ensures |r| <= 1
    ensures |r| == 1 <==> WellFormed(f)
    ensures |r| == 1 ==> r[0] == Format(Summarise(f).value)
  {
    match Summarise(f)
    case None => []
    case Some(s) => [Format(s)]
  }

  /** The listing: the lines of the well-formed features, in response order. */
  function Listing(fs: seq<Feature>): (r: seq<string>)
    ensures |r| <= |fs|
    decreases |fs|
  {
    if |fs| == 0 then [] else LineOf(fs[0]) + Listing(fs[1..])
  }

  /** Listing a concatenation lists each part in turn: one feature never
      affects the lines of another, and the order is kept. */
  lemma {:induction false} ListingAppend(a: seq<Feature>, b: seq<Feature>)
    ensures Listing(a + b) == Listing(a) + Listing(b)
    decreases |a|
  {
    if |a| == 0 {
      assert a + b == b;
    } else {
      assert (a + b)[0] == a[0] && (a + b)[1..] == a[1..] + b;
      ListingAppend(a[1..], b);
      assert Listing(a + b) == LineOf(a[0]) + Listing(a[1..] + b);
    }
  }

  /** A malformed feature anywhere in the response is dropped and the
      features around it are listed as if it were not there. */
  lemma ListingSkipsMalformed(a: seq<Feature>, f: Feature, b: seq<Feature>)
    requires !WellFormed(f)
    ensures Listing(a + [f] + b) == Listing(a + b)
  {
    ListingAppend(a + [f], b);
    ListingAppend(a, [f]);
    ListingAppend(a, b);
    assert [f][0] == f && [f][1..] == [];
    assert Listing([f]) == LineOf(f) + Listing([]) == [];
    assert Listing(a + [f]) == Listing(a);
  }

  /** A well-formed feature contributes its summary line at its own place. */
  lemma ListingKeepsWellFormed(a: seq<Feature>, f: Feature, b: seq<Feature>)
    requires WellFormed(f)
    ensures Listing(a + [f] + b) == Listing(a) + [Format(Summarise(f).value)] + Listing(b)
  {
    ListingAppend(a + [f], b);
    ListingAppend(a, [f]);
    assert Listing([f]) == LineOf(f) + Listing([]);
  }

  /** A line is listed exactly when some feature of the response summarises
      to it. */
  lemma {:induction false} ListingMembers(fs: seq<Feature>, line: string)
    ensures line in Listing(fs) <==>
      exists i :: 0 <= i < |fs| && Summarise(fs[i]).Some? && Format(Summarise(fs[i]).value) == line
    decreases |fs|
  {
    if |fs| > 0 {
      ListingMembers(fs[1..], line);
      assert forall i :: 1 <= i < |fs| ==> fs[i] == fs[1..][i - 1];
      if line in Listing(fs[1..]) {
        var i :| 0 <= i < |fs[1..]| && Summarise(fs[1..][i]).Some?
                 && Format(Summarise(fs[1..][i]).value) == line;
        assert Summarise(fs[i + 1]).Some? && Format(Summarise(fs[i + 1]).value) == line;
      }
    }
  }

  /** Nothing is dropped exactly when every feature is well-formed. */
  lemma {:induction false} ListingComplete(fs: seq<Feature>)
    ensures |Listing(fs)| == |fs| <==> forall i :: 0 <= i < |fs| ==> WellFormed(fs[i])
    decreases |fs|
  {
    if |fs| > 0 {
      ListingComplete(fs[1..]);
      assert forall i :: 1 <= i < |fs| ==> fs[i] == fs[1..][i - 1];
    }
  }

  /** The listing loop as the script runs it: one pass over the response,
      appending the line of each feature that does not raise. */
  method ListProducts(fs: seq<Feature>) returns (products: seq<string>)
    ensures products == Listing(fs)
  {
    products := [];
    var i := 0;
    while i < |fs|
      invariant 0 <= i <= |fs|
      invariant products == Listing(fs[..i])
    {
      var s := Summarise(fs[i]);
      if s.Some? {
        products := products + [Format(s.value)];
      }
      ListingAppend(fs[..i], [fs[i]]);
      assert fs[..i + 1] == fs[..i] + [fs[i]];
      assert Listing([fs[i]]) == LineOf(fs[i]) + Listing([]);
      i := i + 1;
    }
    assert fs[..i] == fs;
  }

  /** The product id of a summary line: the text after its first `=`
      (`split("=", 1)[1]`); a line without `=` raises IndexError. */
  function ProductIdOf(line: string): Option<string> {
    Text.AfterFirst(line, '=')
  }

  /** The acquisition date of a summary line: its first `,`-separated field
      (`split(",")[0]`). */
  function AcquisitionDateOf(line: string): string {
    Text.Split(line, ',')[0]
  }

  /** Every summary line carries a product id, so reading one back never
      raises. */
  lemma FormatHasId(s: ProductSummary)
    ensures ProductIdOf(Format(s)).Some?
  {
    var line := Format(s);
    var k := |line| - |s.id| - 1;
    assert line[k] == '=';
  }

  /** The id is recovered exactly when none of the four fields before it
      contains `=`. */
  lemma IdRoundTrip(s: ProductSummary)
    ensures ProductIdOf(Format(s)) == Some(s.id) <==>
      ('=' !in s.acquisitionDate && '=' !in s.processingLevel
       && '=' !in s.productType && '=' !in s.resourceId)
  {
    var head := s.acquisitionDate + ", " + s.processingLevel + ", " + s.productType + ", "
      + s.resourceId + ", ID";
    var line := Format(s);
    assert line == head + "=" + s.id;
    var r := Text.AfterFirst(line, '=');
    FormatHasId(s);
    var k := |line| - |r.value| - 1;
    if '=' !in s.acquisitionDate && '=' !in s.processingLevel
       && '=' !in s.productType && '=' !in s.resourceId {
      assert '=' !in head;
      assert line[|head|] == '=';
      assert k == |head|;
      assert line[|head| + 1..] == s.id;
    } else {
      assert '=' in head;
      var j :| 0 <= j < |head| && head[j] == '=';
      assert line[j] == '=';
      assert k <= j;
      assert |r.value| > |s.id|;
    }
  }

  /** The date is recovered exactly when it contains no `,`. */
  lemma DateRoundTrip(s: ProductSummary)
    ensures AcquisitionDateOf(Format(s)) == s.acquisitionDate <==> ',' !in s.acquisitionDate
  {
    var line := Format(s);
    var d := s.acquisitionDate;
    Text.SplitFirst(line, ',');
    var r := Text.BeforeFirst(line, ',');
    assert line[|d|] == ',';
    assert line[..|d|] == d;
    if ',' !in d {
      assert r == line[..|r|];
    } else {
      assert r != d;
    }
  }

  /** A summary line has at least five `,`-separated fields, so the
      dialog's `split(",")[3]` on it never raises. */
  lemma FormatFields(s: ProductSummary)
    ensures |Text.Split(Format(s), ',')| >= 5
  {
    var line := Format(s);
    Text.SplitCount(line, ',');
    var a := s.acquisitionDate;
    var b := s.processingLevel;
    var c := s.productType;
    var d := s.resourceId;
    assert line == a + ", " + b + ", " + c + ", " + d + ", ID=" + s.id;
    assert multiset(line) == multiset(a) + multiset(", ") + multiset(b) + multiset(", ")
      + multiset(c) + multiset(", ") + multiset(d) + multiset(", ID=") + multiset(s.id);
    assert multiset(", ")[','] == 1;
    assert multiset(", ID=")[','] == 1;
  }
}

=== FILE: text.dfy ===
/** The handful of Python `str` operations the scripts rely on, with
    Python's semantics: `split` with a one-character separator, `sep in s`,
    and `strip()` with no argument. */
module Text {
  import opened Wrappers

  /** The position of the first `c` in `s`, if any. */
  function FirstIndex(s: string, c: char): (r: Option<nat>)
    ensures r.None? <==> c !in s
    ensures r.Some? ==> r.value < |s| && s[r.value] == c && c !in s[..r.value]
    decreases |s|
  {
    if |s| == 0 then None
    else if s[0] == c then Some(0)
    else
      match FirstIndex(s[1..], c)
      case None => None
      case Some(i) =>
        assert s[..i + 1] == [s[0]] + s[1..][..i];
        Some(i + 1)
  }

  /** Python `s.split(c, 1)[1]`: the text after the first `c`. Python raises
      IndexError when `c` does not occur; that case is `None`. */
  function AfterFirst(s: string, c: char): (r: Option<string>)
    ensures r.None? <==> c !in s
    ensures r.Some? ==>
      var k := |s| - |r.value| - 1;
      0 <= k && s[k] == c && c !in s[..k] && s[k + 1..] == r.value
  {
    match FirstIndex(s, c)
    case None => None
    case Some(i) => Some(s[i + 1..])
  }

  /** Python `s.split(c)[0]`: the text before the first `c`, or all of `s`
      when `c` does not occur. */
  function BeforeFirst(s: string, c: char): (r: string)
    ensures c !in r
    ensures r <= s
    ensures |r| < |s| ==> s[|r|] == c
  {
    match FirstIndex(s, c)
    case None => s
    case Some(i) => s[..i]
  }

  /** Python `s.split(c)` for a one-character separator `c`. */
  function Split(s: string, c: char): (r: seq<string>)
    ensures |r| >= 1
    ensures forall k :: 0 <= k < |r| ==> c !in r[k]
    decreases |s|
  {
    match FirstIndex(s, c)
    case None => [s]
    case Some(i) => [s[..i]] + Split(s[i + 1..], c)
  }

  /** Python `c.join(parts)`. */
  function JoinWith(parts: seq<string>, c: char): string
    requires |parts| >= 1
  {
    if |parts| == 1 then parts[0] else parts[0] + [c] + JoinWith(parts[1..], c)
  }

  /** Joining the pieces of a split with the same separator gives back the
      original text. */
  lemma {:induction false} SplitJoin(s: string, c: char)
    ensures JoinWith(Split(s, c), c) == s
    decreases |s|
  {
    match FirstIndex(s, c)
    case None =>
    case Some(i) =>
      var parts := Split(s, c);
      var rest := Split(s[i + 1..], c);
      assert parts == [s[..i]] + rest;
      assert parts[1..] == rest;
      SplitJoin(s[i + 1..], c);
      assert JoinWith(parts, c) == s[..i] + [c] + s[i + 1..];
      assert s == s[..i] + [c] + s[i + 1..];
  }

  /** The first `c` is at `i` when `s[i]` is `c` and none comes before it. */
  lemma FirstIndexAt(s: string, c: char, i: nat)
    requires i < |s| && s[i] == c && c !in s[..i]
    ensures FirstIndex(s, c) == Some(i)
  {
    var r := FirstIndex(s, c);
    assert s[..i + 1][i] == c;
    assert forall k :: 0 <= k < i ==> s[..i][k] == s[k];
    assert forall k :: 0 <= k < r.value ==> s[..r.value][k] == s[k];
  }

  /** Splitting the separator-join of separator-free pieces gives back the
      pieces. */
  lemma {:induction false} JoinSplit(parts: seq<string>, c: char)
    requires |parts| >= 1
    requires forall k :: 0 <= k < |parts| ==> c !in parts[k]
    ensures Split(JoinWith(parts, c), c) == parts
    decreases |parts|
  {
    if |parts| > 1 {
      var head := parts[0];
      var rest := JoinWith(parts[1..], c);
      var s := head + [c] + rest;
      assert JoinWith(parts, c) == s;
      assert s[..|head|] == head;
      assert s[|head| + 1..] == rest;
      FirstIndexAt(s, c, |head|);
      JoinSplit(parts[1..], c);
      assert Split(s, c) == [head] + parts[1..];
    } else {
      assert Split(parts[0], c) == [parts[0]];
    }
  }

  /** The first field of `Split` is the text before the first separator. */
  lemma SplitFirst(s: string, c: char)
    ensures Split(s, c)[0] == BeforeFirst(s, c)
  {
  }

  /** Cutting at one separator removes exactly one occurrence of it. */
  lemma CountAround(s: string, c: char, i: nat)
    requires i < |s| && s[i] == c
    ensures multiset(s)[c] == multiset(s[..i])[c] + 1 + multiset(s[i + 1..])[c]
  {
    assert s == s[..i] + [c] + s[i + 1..];
    assert multiset(s) == multiset(s[..i]) + multiset{c} + multiset(s[i + 1..]);
  }

  /** There is one more field than there are separators. */
  lemma {:induction false} SplitCount(s: string, c: char)
    ensures |Split(s, c)| == multiset(s)[c] + 1
    decreases |s|
  {
    match FirstIndex(s, c)
    case None =>
      assert multiset(s)[c] == 0;
    case Some(i) =>
      var after := s[i + 1..];
      SplitCount(after, c);
      assert |Split(s, c)| == 1 + |Split(after, c)|;
      CountAround(s, c, i);
      assert multiset(s[..i])[c] == 0;
  }

  /** `sub` occurs in `s` starting at position `i`. */
  predicate OccursAt(s: string, sub: string, i: int) {
    0 <= i && i + |sub| <= |s| && s[i..i + |sub|] == sub
  }

  /** Python `sub in s`: `sub` occurs as a contiguous slice of `s`. */
  function Contains(s: string, sub: string): (b: bool)
    ensures b <==> exists i :: OccursAt(s, sub, i)
    decreases |s|
  {
    if sub <= s then
      assert OccursAt(s, sub, 0);
      true
    else if |s| == 0 then false
    else
      var b := Contains(s[1..], sub);
      if b then
        var i :| OccursAt(s[1..], sub, i);
        assert s[i + 1..i + 1 + |sub|] == s[1..][i..i + |sub|];
        assert OccursAt(s, sub, i + 1);
        true
      else
        var rest := s[1..];
        assert forall i :: OccursAt(s, sub, i) ==> i > 0 && OccursAt(rest, sub, i - 1) by {
          forall i | OccursAt(s, sub, i)
            ensures i > 0 && OccursAt(rest, sub, i - 1)
          {
            assert rest[i - 1..i - 1 + |sub|] == s[i..i + |sub|];
          }
        }
        false
  }

  /** The characters Python's `str.isspace` accepts. */
  predicate IsSpace(c: char) {
    ('\t' <= c <= '\r')
    || ('\U{1C}' <= c <= ' ')
    || c == '\U{85}' || c == '\U{A0}' || c == '\U{1680}'
    || ('\U{2000}' <= c <= '\U{200A}')
    || c == '\U{2028}' || c == '\U{2029}' || c == '\U{202F}'
    || c == '\U{205F}' || c == '\U{3000}'
  }

  /** Every character of `t` is whitespace. */
  predicate AllSpace(t: string) {
    forall j :: 0 <= j < |t| ==> IsSpace(t[j])
  }

  /** The length of the whitespace run that starts `s`. */
  function LeadingSpace(s: string): (n: nat)
    ensures n <= |s| && AllSpace(s[..n])
    ensures n < |s| ==> !IsSpace(s[n])
    decreases |s|
  {
    if |s| > 0 && IsSpace(s[0]) then
      var n := LeadingSpace(s[1..]);
      assert s[..n + 1] == [s[0]] + s[1..][..n];
      n + 1
    else 0
  }

  /** Where the whitespace run that ends `s` begins, never before `from`. */
  function TrailingSpace(s: string, from: nat): (e: nat)
    requires from <= |s|
    ensures from <= e <= |s| && AllSpace(s[e..])
    ensures e > from ==> !IsSpace(s[e - 1])
    decreases |s|
  {
    if |s| > from && IsSpace(s[|s| - 1]) then
      var e := TrailingSpace(s[..|s| - 1], from);
      assert s[e..] == s[..|s| - 1][e..] + [s[|s| - 1]];
      e
    else |s|
  }

  /** Python `s.strip()`: `s` less a leading and a trailing run of
      whitespace, neither of which can be extended. */
  function Strip(s: string): (r: string)
    ensures exists k :: (0 <= k && k + |r| <= |s| && s[k..k + |r|] == r
                         && AllSpace(s[..k]) && AllSpace(s[k + |r|..]))
    ensures |r| > 0 ==> !IsSpace(r[0]) && !IsSpace(r[|r| - 1])
  {
    var k := LeadingSpace(s);
    var e := TrailingSpace(s, k);
    var r := s[k..e];
    assert k + |r| == e;
    assert s[k..k + |r|] == r && AllSpace(s[..k]) && AllSpace(s[k + |r|..]);
    assert |r| > 0 ==> r[0] == s[k] && r[|r| - 1] == s[e - 1];
    r
  }

  /** Stripping a stripped string changes nothing. */
  lemma StripIdempotent(s: string)
    ensures Strip(Strip(s)) == Strip(s)
  {
    var r := Strip(s);
    assert LeadingSpace(r) == 0;
    assert TrailingSpace(r, 0) == |r|;
    assert r[0..|r|] == r;
  }
}

=== FILE: wrappers.dfy ===
/** Failure-carrying results used throughout the model. A Python exception
    raised by the scripts becomes a `Failure`; an absent value becomes `None`.
    Both types support Dafny's `:-` elephant operator. */
module Wrappers {

  datatype Option<+T> = None | Some(value: T) {
    predicate IsFailure() {
      None?
    }

    function PropagateFailure<U>(): Option<U>
      requires None?
    {
      None
    }

    function Extract(): T
      requires Some?
    {
      value
    }
  }

  datatype Result<+R, +E> = Success(value: R) | Failure(error: E) {
    predicate IsFailure() {
      Failure?
    }

    function PropagateFailure<U>(): Result<U, E>
      requires Failure?
    {
      Failure(error)
    }

    function Extract(): R
      requires Success?
    {
      value
    }
  }
}
